=== FILE: README.md ===
# Nextep site scripts — a Dafny model

This project models the three client-side scripts that hold the logic of
the Nextep consultancy site:

- **security.js** — the form guard. It has three parts:
  - a sliding-window rate limiter (at most three submissions in five minutes);
  - the ordered submission check: rate limit, honeypot, minimum fill time, content denylist, length limits;
  - the input sanitiser, the hex token generator and the thirty-minute CSRF token cache.
- **cookies.js** — the consent and tracking store. It covers:
  - the consent cookie (`'necessary'`, `'rejected'` or absent);
  - the necessary cookies (theme, session id);
  - the consent-gated analytics updaters: visit count, last visit, referrer, page-view list, habit histograms, time spent, form counters;
  - the load-time banner decision, `getUserStats` and `revokeConsent`.
- **script.js** — the page helpers:
  - the booking time slots and the booking-form validation;
  - the theme toggle;
  - the navbar and back-to-top scroll thresholds;
  - the testimonial carousel.

All of it is pure functions over immutable values. The clock, the random
bytes, the session-id suffix and the state of `localStorage` and
`sessionStorage` are parameters. The cookie jar is a `map` from cookie
name to a typed cell that holds the value already parsed. A cell of the
wrong kind stands for text that `JSON.parse` rejects; valid JSON of another
shape is not modelled. The rate limiter's
list and the CSRF session slot are small explicit state records.

Modules, one file each:

| module | file | models |
|---|---|---|
| `Wrappers` | wrappers.dfy | `Option` |
| `Text` | text.dfy | whitespace, `trim`, case-insensitive search, decimal and hex digits |
| `RateLimit` | rate_limit.dfy | `rateLimitStore` |
| `Sanitize` | sanitize.dfy | `isInputSafe`, `sanitizeInput` |
| `FormGuard` | form_guard.dfy | honeypot, fill time, length limits, `performSecurityChecks`, `sanitizeFormData` |
| `Csrf` | csrf.dfy | `generateToken`, `getCSRFToken`, `refreshCSRFToken` |
| `Browser` | browser.dfy | `localStorage` as the scripts see it |
| `CookieJar` | cookie_jar.dfy | cookie names, `getCookie`, the defensive reads |
| `Tracking` | tracking.dfy | `initUserTracking` and the analytics updaters |
| `Consent` | consent.dfy | `saveConsent`, `setNecessaryCookies`, `deleteAllCookies`, banner decision, `getUserStats`, `revokeConsent` |
| `Booking` | booking.dfy | `populateTimeSlots`, `handleBookingSubmit` |
| `Site` | site.dfy | `initTheme`, `initScrollEffects`, `initCarousel` |

Several small tests of the scripts are predicates without contracts of their own. Their
properties are stated by the members that use them:

- `hasConsent` is `Consent.HasConsent`.
- `getConsentType() === 'rejected'` is `CookieJar.IsRejected`.
- `isHoneypotTriggered` is `FormGuard.IsHoneypotTriggered`.
- `isSubmissionTooFast` is `FormGuard.IsSubmissionTooFast`.

Where the code and its comments or evident intent differ, the model follows the code:

- `revokeConsent` keeps the theme and session cookies. `deleteAllCookies` removes only the six analytics cookies.
- Tracking is gated only on the consent being `'rejected'`. Any other value, including none, lets an updater write.
- `getUserStats` throws on stored text that `JSON.parse` rejects. This is the `ParseFailure` outcome.
- A revisited page keeps its place in the page-view list. Eviction drops the entries first visited longest ago.
- The form counters are written from the snapshot taken at load, not re-read from the jar.
- `handleBookingSubmit` closes the modal and resets the form even when navigating to the mail link throws (script.js:524-525). Only validation failures leave the modal open.

## Model

| member | source | states |
|---|---|---|
| Text.Trim | security.js:97 | `trim`: the result neither starts nor ends with whitespace, is a slice of the input with only whitespace cut from the two ends, and adds no character |
| Text.ByteToHex | security.js:259 | `toString(16).padStart(2, '0')`: two lower-case hex digits whose value is the byte |
| RateLimit.Recent | security.js:47-49 | the window filter keeps exactly the stored timestamps less than five minutes old, and never grows the list |
| RateLimit.RecentCountsPositions | security.js:56-59 | the filtered list has one entry per stored position whose timestamp lies in the window |
| RateLimit.AddSubmission | security.js:45-52 | after a submission the last entry is `now`, every entry is inside the window, and the entries are `now` plus the old in-window ones |
| RateLimit.IsRateLimited | security.js:54-60 | limited iff at least three stored positions lie inside the window (strict `<`) |
| RateLimit.AddSubmissionCountsOnce | security.js:45-60 | recording a submission raises the in-window count at that instant by exactly one |
| RateLimit.RecentIdempotent | security.js:47-49 | filtering a list whose entries all count gives the list back |
| RateLimit.RecentShrinks | security.js:56-59 | as time passes the in-window count never grows, and it strictly drops once an entry counted earlier has left the window |
| RateLimit.ThreeSubmissionScenario | security.js:15-16 | entries at 0, 60 s and 120 s: limited at 200 s, not limited at 310 s |
| RateLimit.MinutesUntilExpiry | security.js:64-66 | zero iff the timestamp has left the window; otherwise the ceiling of the remaining milliseconds in minutes |
| RateLimit.WaitMinutesAsWritten | security.js:62-67 | 0 for an empty list; otherwise the whole minutes until the minimum of all stored entries leaves the window, never negative |
| RateLimit.WaitMinutes | security.js:62-67 | the corrected wait: minutes until the oldest in-window entry leaves the window |
| RateLimit.LimitedWaitIsPositive | security.js:174-179 | whenever the limiter refuses, the corrected wait is at least one minute |
| RateLimit.WaitingLiftsLimit | security.js:54-67 | with exactly three submissions in the window, waiting the corrected minutes lifts the limit |
| RateLimit.GuardedAttemptsStaySmall | security.js:45-60 | when only attempts the limiter lets through are recorded, the list never holds more than three timestamps |
| RateLimit.GuardedWaitsAgree | security.js:54-67 | with at most three stored entries, a refusal means all of them count, and the wait as written equals the corrected wait and is at least one minute |
| RateLimit.GuardedWaitLiftsLimit | security.js:54-67 | with at most three stored entries, waiting the minutes announced as written lifts the limit |
| RateLimit.GuardedAttemptsWaitsAgree | security.js:45-67 | after any run of attempts recorded only when the limiter allowed them, a refusal announces the corrected wait |
| RateLimit.WaitAsWrittenUnderstates | security.js:62-67 | a list built by recording four attempts without consulting the limiter, on which the limiter refuses yet the wait as written is 0 |
| RateLimit.StaleScenarioWaits | security.js:62-67 | on that list the wait as written is 0 minutes and the corrected wait is 4 |
| Sanitize.IsInputSafe | security.js:105-120 | non-strings are safe; a string is safe iff none of the eight patterns occurs in it: `<script`, `javascript:`, `on` + word characters + optional spaces + `=`, `<iframe`, `<object`, `<embed`, `expression` + optional spaces + `(`, `data:text/html`, all in any case |
| Sanitize.PlainTextIsSafe | security.js:107-116 | a string without `<`, `:`, `=` or `(` matches none of the patterns |
| Sanitize.ScriptBlockAt | security.js:84 | a removed script block is at least 16 characters, starts with `<script` and ends with `</script>` |
| Sanitize.ScriptBlockShape | security.js:84 | the script-block pattern matches exactly where `<script`, a word boundary and some later `</script>` meet, and no `</script>` lies inside the removed block, so it ends at the first one |
| Sanitize.JsUriAt | security.js:89 | a removed `javascript` … `:` run starts with `javascript` and ends with a colon |
| Sanitize.JsUriShape | security.js:89 | a removed run is at least 11 characters with only whitespace between the word and the colon, and a literal `javascript:` is removed as exactly those 11 characters |
| Sanitize.RemoveAll | security.js:82-91 | a global `replace` with `''` never lengthens the text, adds no character, and is the identity where the pattern never matches |
| Sanitize.KeepRun | security.js:82-91 | a stretch where the pattern starts nowhere is kept as it is, and the removal carries on right after it |
| Sanitize.RemoveAllShrinks | security.js:82-91 | when the pattern matches somewhere, deleting its first match makes the result strictly shorter than the text |
| Sanitize.EncodeAngles | security.js:92-93 | after the two entity replacements no `<` or `>` is left, every character is from the entities or a non-bracket of the input, and text without brackets is unchanged |
| Sanitize.EncodeAnglesLength | security.js:92-93 | the result is longer than the input by exactly three for each `<` and each `>` |
| Sanitize.EncodeAnglesChar | security.js:92-93 | `<` becomes `&lt;`, `>` becomes `&gt;`, and every other character is kept as it is |
| Sanitize.EncodeAnglesAppend | security.js:92-93 | encoding works character by character: the encoding of a concatenation is the concatenation of the encodings |
| Sanitize.SanitizeInput | security.js:79-98 | `''` for a non-string; for a string no `<` or `>`, no leading or trailing whitespace, and only characters of the input or of the entities |
| Sanitize.SanitizedHasNoTags | security.js:79-98 | no sanitised value contains `<script`, `<iframe`, `<object` or `<embed` in any case |
| Sanitize.JsRemovalCanFormPattern | security.js:89 | the single pass turns `javajavascript:script:` into `javascript:` |
| FormGuard.MaxLength | security.js:25-31 | name 100, email 254, phone 20, message 2000, 500 for every other key not inherited from `Object.prototype`, and no limit for the inherited keys |
| FormGuard.RecordFormOpen | security.js:148-150 | recording the open time keeps the submission list |
| FormGuard.FillTimeAfterOpen | security.js:156-160 | after an open at a non-zero time, a submission is too fast iff it comes less than 2 s later |
| FormGuard.FirstUnsafe | security.js:203-211 | finds an unsafe field iff some field is unsafe |
| FormGuard.FirstTooLong | security.js:214-223 | finds the first over-long field, and none iff no field is over-long |
| FormGuard.PerformSecurityChecks | security.js:172-226 | checks run in order and the first failure decides: a rate-limit refusal announcing `getWaitTime` as written, which is at least one minute when at most three timestamps are stored; a silent bot verdict exactly for a filled honeypot; too fast; unsafe content iff any field is unsafe; too long, naming the first over-long field, exactly when every field is safe and some field is over-long; passed iff every check passes |
| FormGuard.PerformSecurityChecksCorrected | security.js:172-180 | the intended check: a rate-limit refusal always announces at least one minute, and with three counted submissions waiting that long lifts the limit; every other outcome is the one as written |
| FormGuard.GuardedChecksAgree | security.js:172-180 | with at most three stored timestamps, the check as written and the corrected check give the same verdict |
| FormGuard.StaleListAnnouncesNoWait | security.js:174-179 | on the stale four-entry list at 310 s, the check as written refuses with a wait of 0 minutes and the corrected check with 4 |
| FormGuard.MessageNamesMinutes | security.js:178 | the rate-limit message carries the wait in decimal right after its fixed 34-character lead |
| FormGuard.MessageNamesKey | security.js:220 | the length message starts with `The ` followed by the offending field's key |
| FormGuard.ToCheckResult | security.js:176-225 | `passed` only for a pass; `error` null and `isBot` set exactly for the bot verdict; a refusal's `error` is the message for its reason |
| FormGuard.HoneypotFailsSilently | security.js:182-191 | a filled honeypot fails with no message and `isBot`, whatever the fields say, unless rate limited |
| FormGuard.ContentBeforeLength | security.js:202-223 | an unsafe field wins over an earlier over-long field |
| FormGuard.SanitizeFormData | security.js:233-239 | never more entries than fields, no entry under the key `__proto__`, and no `<` or `>` in any value |
| FormGuard.SanitizeFormDataPointwise | security.js:233-239 | when no field is keyed `__proto__`, the result has the same keys in the same order, each value the sanitised input of its field |
| FormGuard.SanitizeFormDataEntries | security.js:233-239 | the entries are exactly the key and sanitised value of every field not keyed `__proto__` |
| FormGuard.ProtoFieldDropped | security.js:234-236 | a field keyed `__proto__` is lost: assigning a string to it on a fresh object changes nothing |
| FormGuard.SanitizedFormHasNoTags | security.js:233-239 | no sanitised form value contains `<script`, `<iframe`, `<object` or `<embed` in any case |
| Csrf.HexEncode | security.js:259 | two hex characters per byte, byte `i` at positions `2i` and `2i+1` |
| Csrf.HexRoundTrip | security.js:259 | decoding the hex text gives back the bytes |
| Csrf.GenerateToken | security.js:249-260 | 32 bytes make 64 hex characters that decode to those bytes |
| Csrf.TokensDistinct | security.js:249-260 | different random bytes give different tokens |
| Csrf.RefreshCsrfToken | security.js:285-296 | a fresh token, stored with expiry `now + 1 800 000` when session storage works, storage untouched when it throws |
| Csrf.GetCsrfToken | security.js:266-279 | the stored token, with the session unchanged, while `now < expiry`; otherwise exactly a refresh, which leaves the session untouched when session storage throws |
| Csrf.TokenStableWhileLive | security.js:266-279 | a second request before expiry returns the same token, whatever the random source says |
| Csrf.TokenRotatesAfterExpiry | security.js:266-296 | thirty minutes after a refresh the next request issues a new token |
| CookieJar.GetCookie | cookies.js:95-110 | the stored value when the name is present, JavaScript `null` otherwise |
| CookieJar.ReadVisits | cookies.js:209 | the stored count, or 0 when the cookie is absent |
| CookieJar.ReadViews | cookies.js:238 | a missing or empty cookie reads as `[]`; a stored list reads as itself; the read fails exactly when a non-empty cookie holds something other than a list |
| CookieJar.ReadHabits | cookies.js:271 | a missing or empty cookie reads as `{}`; a stored record reads as itself; the read fails exactly when a non-empty cookie holds something other than a record |
| CookieJar.ReadFormStats | cookies.js:361 | a missing or empty cookie reads as `{}`; stored counters read as themselves; the read fails exactly when a non-empty cookie holds something other than counters |
| CookieJar.NecessaryNamesApart | cookies.js:13-69 | the consent, theme and session cookies are not analytics cookies, and their names differ |
| Tracking.FindPage | cookies.js:242 | `findIndex`: the first entry with the page, or none iff no entry has it |
| Tracking.KeepLast | cookies.js:255-258 | `slice(-20)`: at most 20 entries, the last ones, and a short list unchanged |
| Tracking.UpdatePageViews | cookies.js:238-258 | at most 20 entries; a known page gets `count+1` and a new last-visit in place with everything else unchanged; a new page is appended with count 1, dropping the first entry when the list is full |
| Tracking.UpdateKeepsPagesDistinct | cookies.js:238-258 | pages that were distinct stay distinct |
| Tracking.RevisitKeepsPosition | cookies.js:243-245 | a revisited page is not moved to the end |
| Tracking.NewPageIsLast | cookies.js:246-252 | a new page is always the last entry |
| Tracking.TrackPageView | cookies.js:234-265 | no change when consent is rejected or the stored list is malformed; otherwise the list is updated, and no other cookie changes |
| Tracking.Bump | cookies.js:277 | `(m[k] \|\| 0) + 1`: exactly bucket `k` gains one |
| Tracking.SlotOf | cookies.js:274-275 | night before 6, morning before 12, afternoon before 18, evening otherwise |
| Tracking.DeviceOf | cookies.js:280 | mobile iff the width is at most 768 |
| Tracking.RecordSession | cookies.js:273-291 | one time-slot bucket and one device bucket gain one, the session count gains one, other fields keep their values |
| Tracking.SessionAddsOneEach | cookies.js:275-282 | across all buckets each histogram grows by exactly one |
| Tracking.TrackUserHabits | cookies.js:267-304 | no change when consent is rejected or the stored record is text `JSON.parse` rejects; otherwise the updated record is written and the unload writers are armed; no other cookie changes |
| Tracking.RoundToSeconds | cookies.js:345 | `Math.round(ms / 1000)`: the nearest second, halves rounded up |
| Tracking.AddTimeSpent | cookies.js:346-348 | total time gains the seconds, the last duration becomes them, other fields keep their values |
| Tracking.WriteTimeSpentAsWritten | cookies.js:343-354 | the unload writer as written: updates the habits cookie whenever it parses, with no consent test |
| Tracking.UnloadRecreatesHabits | cookies.js:343-354 | with consent rejected and no habits cookie, the writer as written creates one |
| Tracking.WriteTimeSpent | cookies.js:339-354 | the corrected writer: no change once consent is rejected or the habits cookie does not parse; otherwise exactly the writer as written, which stores the habits with the rounded seconds added; only the habits cookie can change |
| Tracking.TrackFormInteractions | cookies.js:357-395 | a tracker exactly when consent is not rejected and the counters parse; it holds a snapshot of the stored counters and listens to submits iff the form exists and to modal opens iff the open button exists too |
| Tracking.Tally | cookies.js:367-387 | each interaction raises its own counter by one; a submit also records its time |
| Tracking.OnInteractionAsWritten | cookies.js:366-390 | a listened-to interaction tallies the snapshot and writes it to the counters cookie, with no consent test |
| Tracking.ClickRecreatesCounters | cookies.js:385-390 | with consent rejected and no counters cookie, a click recreates it |
| Tracking.OnInteraction | cookies.js:358-390 | the corrected listener: no change once consent is rejected or for an interaction not listened to; otherwise exactly the listener as written: the snapshot is tallied and written to the counters cookie, and nothing else changes |
| Tracking.SnapshotOverwrites | cookies.js:361-390 | the value written depends only on the snapshot, not on what the jar holds at that moment |
| Tracking.CountVisit | cookies.js:208-222 | visits become old count + 1, last visit is set, the referrer is written only when none is stored and it is non-empty |
| Tracking.InitUserTracking | cookies.js:204-232 | no change when consent is rejected; otherwise the visit is counted and timed, the page-view list and the habits record are updated when they parse and left alone when they do not, the time-spent writer is armed exactly when the habits record parses, the form listeners are attached exactly when the counters parse, with a snapshot of them, and only analytics cookies change |
| Consent.ChoiceText | cookies.js:464-471 | the accept button stores `'necessary'`, the reject button `'rejected'` |
| Consent.DeleteAllCookies | cookies.js:128-133 | the six analytics cookies are gone and every other cookie is kept |
| Consent.NewSessionId | cookies.js:194 | a session id starts with `sess_` |
| Consent.SetNecessaryCookies | cookies.js:181-198 | theme from `localStorage` or `'light'`, kept when storage throws; an existing session id is kept, a new one made only when it is missing or empty; nothing else changes |
| Consent.SetNecessaryIdempotent | cookies.js:181-198 | provisioning twice changes nothing the second time, whatever the clock and random suffix |
| Consent.SaveConsent | cookies.js:156-175 | the consent cookie holds the choice |
| Consent.RejectPurgesAnalytics | cookies.js:156-167 | rejecting leaves consent `'rejected'`, no analytics cookie, and theme and session untouched |
| Consent.AcceptProvisions | cookies.js:157-161 | accepting leaves consent `'necessary'`, the theme provisioned, an existing session kept, a session present, and the analytics cookies untouched |
| Consent.RejectionStopsTracking | cookies.js:206-235 | after a reject every corrected updater and the load-time decision leave the jar unchanged |
| Consent.RejectedPageStillWrites | cookies.js:338-390 | after a reject on an already tracked page, the unload writer and the click listener as written recreate analytics cookies |
| Consent.OnLoad | cookies.js:401-410 | banner shown iff no consent; with `'necessary'` provision then track; with any other value nothing |
| Consent.SessionStableAcrossLoads | cookies.js:181-198 | a returning visitor who accepted keeps the same session id on the next load |
| Consent.AcceptNecessary | cookies.js:464-467 | the accept button leaves consent `'necessary'` and counts the visit |
| Consent.RejectAllCookies | cookies.js:469-471 | the reject button leaves consent `'rejected'` and no analytics cookie |
| Consent.RevokeConsent | cookies.js:530-534 | afterwards there is no consent, the banner is shown, no analytics cookie remains, and theme and session are kept |
| Consent.GetUserStats | cookies.js:517-527 | `null` exactly when consent is rejected; a throw exactly when a stored JSON cookie holds text `JSON.parse` rejects; otherwise the visits, last visit, habits, page views and form counters as stored |
| Consent.StatsSeeTheVisit | cookies.js:204-212 | after a load with consent the stats report the visit just counted |
| Booking.ClockHour | script.js:467 | hours after 12 lose 12, others are kept |
| Booking.ClockRoundTrip | script.js:467-468 | the 12-hour reading with its AM/PM gives every hour of the day back |
| Booking.SlotLabelRoundTrip | script.js:466-469 | every label reads back as the 24-hour hour it was made from |
| Booking.TimeSlots | script.js:454-476 | a disabled empty-valued placeholder, then one enabled option per hour from 10 to 18 with value and text equal |
| Booking.OnlyPlaceholderIsEmpty | script.js:458-475 | every slot after the placeholder has a non-empty value |
| Booking.TimeSlotLabels | script.js:466-475 | the nine labels are `10:00 AM` … `6:00 PM`, in order |
| Booking.LastDot | script.js:504 | finds the last `.` in a range, or none iff the range has none |
| Booking.EmailCheckMatchesPattern | script.js:504-505 | the scan accepts exactly the strings `/^[^\s@]+@[^\s@]+\.[^\s@]+$/` matches |
| Booking.EmailExamples | script.js:504-505 | `a@b.co` passes; a space, a second `@`, a dot right after `@` or a final dot fails |
| Booking.FieldText | script.js:485-488 | the trimmed value, or `''` for a missing element |
| Booking.HandleBookingSubmit | script.js:478-526 | an empty required field alerts and stops; a bad address alerts and stops; otherwise the modal closes, and the booking is mailed with no alert iff navigation does not throw |
| Booking.TopicIsOptional | script.js:495-501 | a booking without a topic is sent like any other |
| Booking.BlankNameIsMissing | script.js:487-500 | a name of whitespace only counts as missing |
| Site.InitialTheme | script.js:122-128 | the stored theme, else the system preference, else `'light'` when storage or `matchMedia` throws |
| Site.Toggle | script.js:134-135 | `'light'` or a missing attribute becomes `'dark'`; anything else becomes `'light'` |
| Site.ToggleTwice | script.js:133-146 | toggling twice restores a light or dark page |
| Site.Icon | script.js:162-166 | the sun on a dark page, the moon otherwise |
| Site.ToggleAndSave | script.js:133-146 | the toggled theme, saved when storage works |
| Site.ToggledThemePersists | script.js:122-146 | the next load shows the toggled theme, whatever the system prefers |
| Site.OnSystemThemeChange | script.js:149-156 | a system change moves the theme only while none is stored |
| Site.ToggleOverridesSystem | script.js:133-156 | once the visitor toggled, system changes no longer move the theme |
| Site.OnScroll | script.js:184-217 | navbar scrolled iff past 50 px, back-to-top visible iff past 300 px |
| Site.VisibleImpliesScrolled | script.js:189-216 | the back-to-top button never shows over an unscrolled navbar |
| Site.Clamp | script.js:544-556 | the browser keeps `scrollLeft` within `[0, maxScroll]`: a negative target lands on 0, a target past the end on `maxScroll`, and one in range is kept |
| Site.PrevUndoesNext | script.js:541-559 | previous undoes next wherever next moved a full card |
| Site.AutoScrollTick | script.js:564-572 | back to 0 within 10 px of the end, else forward to one card on or to the end |
| Site.AutoScroll | script.js:564-572 | repeated ticks stay within `[0, maxScroll]` |
| Site.AutoScrollWraps | script.js:539-571 | from any position the carousel returns to the start within `(maxScroll - x) / 320 + 2` ticks |

## Left out

- `trackScrollDepth` (cookies.js:306-336): a running average of float percentages with `Math.round`. Its unload write to the habits cookie is not modelled.
- The scroll progress bar (script.js:196-208): floating-point widths.
- The banner markup, `hideCookieBanner`, the `cookieConsentChanged` event, the modal's open, close and focus handling, and every event-listener registration. These are DOM wiring; the model covers the decisions they trigger.
- `createCookieBanner` called a second time while a banner is already shown (through `showConsentBanner`) adds a second banner. That is markup.
- `document.cookie` text: `encodeURIComponent`, expiry dates, the `Secure` flag, and `getCookie`'s first-match scan over the cookie string. The jar is a map from name to parsed value, and a deleted cookie is absent.
- `setCookie` failing: every write is taken to succeed.
- `JSON.parse`, `JSON.stringify` and `parseInt`: the cells hold parsed values. A value of the wrong kind stands for text that `JSON.parse` rejects. Valid JSON of another shape (an array, a number or `null` where an object is expected) is not modelled.
- Consent.GetUserStats: a stored habits record or counters value that is valid JSON of another shape is returned by the code as it is, without a throw. The model has no cell for such a value; its wrong-kind cells answer `ParseFailure`.
- Tracking.TrackUserHabits: a habits cookie holding a JSON array is written back as `[]`, and the unload writers are armed. The model has no cell for an array, and its wrong-kind cell leaves the jar unchanged. That is right only for the JSON values on which the strict-mode property writes throw, such as a number or `null`.
- Tracking.TrackFormInteractions: in the code, any counters cookie that `JSON.parse` accepts gets its listeners, even an array, a number or `null`. The model has no cell for these, and its wrong-kind cell gives no tracker.
- CookieJar.ReadVisits: any stored text reads as 0. The model does not follow `parseInt` on a numeric prefix.
- Tracking.RecordSession: a stored field of the wrong JSON type is not modelled. Fields read with `|| 0` are taken to be numbers.
- Randomness: `crypto.getRandomValues`, the `Math.random` fallback and the random part of the session id are parameters.
- The clock (`Date.now`, `toISOString`, `getHours`), `window.innerWidth`, `document.referrer` and the page path are parameters of `Tracking.Visit`.
- `isSafeRedirectUrl` (security.js:307): it depends on the browser's URL parser.
- The mail link (script.js:510-518): string encoding and navigation. Whether the navigation throws is a parameter.
- `throttle` and `debounce`: timers. Each scroll event and each auto-scroll tick is taken on its own.
- Smooth scrolling: each carousel step is taken to finish before the next.
- The mobile menu, smooth in-page scrolling, animations, the preloader, performance.js, destinations and the React components are not part of this model.
- Lengths count characters. JavaScript counts UTF-16 code units, so text outside the Basic Multilingual Plane is measured differently.
- Sanitize.RemoveAll: shortening is stated for the first match (`Sanitize.RemoveAllShrinks`). That a match anywhere yields a first one is not proved as a separate step.
- Sanitize.SanitizeInput: only the absence of angle brackets, the trimming and the origin of each character are stated. The exact text each regular expression removes is defined but not characterised further. The single pass can build a new `javascript:` out of the pieces around a removed one (`Sanitize.JsRemovalCanFormPattern`).

## Findings

| source | as written | input that shows it | evidently intended | confidence | as-written member | corrected member |
|---|---|---|---|---|---|---|
| security.js:62-67 | the wait is counted from the minimum of all stored timestamps, including ones already outside the window | submissions recorded at 0, 200 s, 250 s and 299 s without consulting the limiter, which the exported `addSubmission` (security.js:335) allows, then a check at 310 s: three entries are in the window so the guard refuses, yet the message says to wait 0 minutes | count from the oldest entry still in the window, so a refusal always announces at least one minute; a caller that records only allowed attempts never sees the difference (RateLimit.GuardedAttemptsWaitsAgree) | low — not executed | FormGuard.StaleListAnnouncesNoWait | FormGuard.PerformSecurityChecksCorrected |
| cookies.js:343-354 | the unload writer registered by `trackTimeSpent` does not test consent when it runs | accept, then revoke and reject on the same page, then leave the page: the habits cookie is written again after the reject | re-test consent when the handler runs, as every other updater does at entry | medium — not executed | Consent.RejectedPageStillWrites | Consent.RejectionStopsTracking |
| cookies.js:366-390 | the form-interaction listeners do not test consent when they run | accept, then call `revokeConsent` and reject on the same page, then click a primary button: the form-interaction cookie is written again | re-test consent when the listener runs | medium — not executed | Tracking.ClickRecreatesCounters | Tracking.OnInteraction |

=== FILE: booking.dfy ===
/**
 * The booking form of script.js: the time-slot options of
 * `populateTimeSlots` and the validation and outcome of
 * `handleBookingSubmit`. The mail link itself and the modal's DOM are not
 * modelled; whether the navigation to the mail link throws is a parameter.
 */
module Booking {
  import opened Wrappers
  import opened Text

  // ------------------------------------------------------------------ time slots

  const FirstSlotHour := 10
  const LastSlotHour := 18

  /** The hour shown on a 12-hour clock for a 24-hour hour: 12 stays 12, later hours lose 12. */
  function ClockHour(i: nat): (h: nat)
    ensures i > 12 ==> h + 12 == i
    ensures i <= 12 ==> h == i
  {
    if i > 12 then i - 12 else i
  }

  /** Noon and later are PM. */
  predicate IsPm(i: nat) {
    i >= 12
  }

  /** The reading of a 12-hour time back as a 24-hour hour. */
  function To24(h: nat, pm: bool): nat {
    if pm then (if h == 12 then 12 else h + 12) else h
  }

  /** The 12-hour reading of every hour of a day gives the hour back. */
  lemma ClockRoundTrip(i: nat)
    requires i < 24
    ensures To24(ClockHour(i), IsPm(i)) == i
    ensures 1 <= i ==> 1 <= ClockHour(i) <= 12
  {
  }

  /** `${hour}:00 ${ampm}`. */
  function SlotLabel(i: nat): string {
    NatToString(ClockHour(i)) + ":00 " + (if IsPm(i) then "PM" else "AM")
  }

  /** Reads a label back: the leading digits, then `:00 AM` or `:00 PM`. */
  function ParseSlotLabel(s: string): (r: Option<nat>) {
    var n := Span(s, 0, IsDigit);
    if n == 0 then None
    else if s[n..] == ":00 AM" then Some(To24(DigitsValue(s[..n]), false))
    else if s[n..] == ":00 PM" then Some(To24(DigitsValue(s[..n]), true))
    else None
  }

  /** Every label names its hour: reading it back gives the 24-hour hour it was made from. */
  lemma {:induction false} SlotLabelRoundTrip(i: nat)
    requires i < 24
    ensures ParseSlotLabel(SlotLabel(i)) == Some(i)
  {
    var digits := NatToString(ClockHour(i));
    var rest := ":00 " + (if IsPm(i) then "PM" else "AM");
    var s := SlotLabel(i);
    assert s == digits + rest;
    var n := Span(s, 0, IsDigit);
    assert s[|digits|] == ':';
    assert n == |digits|;
    assert s[..n] == digits && s[n..] == rest;
    NatToStringRoundTrip(ClockHour(i));
    ClockRoundTrip(i);
    if IsPm(i) {
      assert rest == ":00 PM";
      assert ParseSlotLabel(s) == Some(To24(DigitsValue(digits), true));
    } else {
      assert rest == ":00 AM";
      assert ParseSlotLabel(s) == Some(To24(DigitsValue(digits), false));
    }
  }

  /** One `<option>` of the time select. */
  datatype SlotOption = SlotOption(value: string, text: string, disabled: bool)

  const Placeholder := SlotOption("", "Select a time", true)

  /** `populateTimeSlots`: the placeholder, then one option per hour from 10 to 18. */
  function TimeSlots(): (opts: seq<SlotOption>)
    ensures |opts| == 1 + LastSlotHour - FirstSlotHour + 1
    ensures opts[0] == Placeholder
    ensures forall k :: 1 <= k < |opts| ==>
              && opts[k].value == opts[k].text == SlotLabel(FirstSlotHour + k - 1)
              && !opts[k].disabled
  {
    [Placeholder] + seq(LastSlotHour - FirstSlotHour + 1, k requires 0 <= k => var t := SlotLabel(FirstSlotHour + k); SlotOption(t, t, false))
  }

  /** Only the placeholder has an empty value, so only it fails the required-field check. */
  lemma OnlyPlaceholderIsEmpty()
    ensures forall k :: 1 <= k < |TimeSlots()| ==> |TimeSlots()[k].value| > 0
  {
  }

  /** The nine slot labels, in order. */
  lemma TimeSlotLabels()
    ensures var opts := TimeSlots();
            && opts[1].text == "10:00 AM" && opts[2].text == "11:00 AM" && opts[3].text == "12:00 PM"
            && opts[4].text == "1:00 PM" && opts[5].text == "2:00 PM" && opts[6].text == "3:00 PM"
            && opts[7].text == "4:00 PM" && opts[8].text == "5:00 PM" && opts[9].text == "6:00 PM"
  {
    MorningLabels();
    AfternoonLabels();
  }

  /** The hours before one o'clock are written with two digits. */
  lemma MorningLabels()
    ensures SlotLabel(10) == "10:00 AM" && SlotLabel(11) == "11:00 AM" && SlotLabel(12) == "12:00 PM"
  {
    assert NatToString(10) == NatToString(1) + "0";
    assert NatToString(11) == NatToString(1) + "1";
    assert NatToString(12) == NatToString(1) + "2";
  }

  /** The afternoon hours count again from one. */
  lemma AfternoonLabels()
    ensures SlotLabel(13) == "1:00 PM" && SlotLabel(14) == "2:00 PM" && SlotLabel(15) == "3:00 PM"
    ensures SlotLabel(16) == "4:00 PM" && SlotLabel(17) == "5:00 PM" && SlotLabel(18) == "6:00 PM"
  {
    assert NatToString(1) == "1" && NatToString(2) == "2" && NatToString(3) == "3";
    assert NatToString(4) == "4" && NatToString(5) == "5" && NatToString(6) == "6";
  }

  // ------------------------------------------------------------------ e-mail shape

  /** A character the pattern `[^\s@]` accepts. */
  predicate IsAddressChar(c: char) {
    !IsSpace(c) && c != '@'
  }

  /**
   * `/^[^\s@]+@[^\s@]+\.[^\s@]+$/` matches with its `@` at `at` and its
   * `\.` at `dot`: three non-empty runs of address characters between them.
   */
  predicate EmailMatchesAt(s: string, at: nat, dot: nat) {
    && 0 < at && at + 1 < dot && dot + 1 < |s|
    && s[at] == '@' && s[dot] == '.'
    && (forall k :: 0 <= k < at ==> IsAddressChar(s[k]))
    && (forall k :: at < k < |s| ==> IsAddressChar(s[k]))
  }

  /** The pattern matches the whole string for some choice of `@` and `\.`. */
  ghost predicate EmailMatches(s: string) {
    exists at: nat, dot: nat :: EmailMatchesAt(s, at, dot)
  }

  /** Index of the last `.` in `s[lo..hi]`. */
  function LastDot(s: string, lo: nat, hi: nat): (r: Option<nat>)
    requires lo <= hi <= |s|
    ensures r.Some? ==> lo <= r.value < hi && s[r.value] == '.'
    ensures r.None? ==> forall k :: lo <= k < hi ==> s[k] != '.'
    decreases hi
  {
    if hi == lo then None
    else if s[hi - 1] == '.' then Some(hi - 1)
    else LastDot(s, lo, hi - 1)
  }

  /**
   * The scan a hand-written matcher makes: a run of address characters, an
   * `@`, a run of address characters to the end, and a `.` inside that
   * second run that is neither its first nor its last character.
   */
  function IsValidEmail(s: string): (ok: bool) {
    var at := Span(s, 0, IsAddressChar);
    && 0 < at && at + 3 <= |s| && s[at] == '@'
    && Span(s, at + 1, IsAddressChar) == |s|
    && LastDot(s, at + 2, |s| - 1).Some?
  }

  /** The scan accepts exactly the strings the pattern matches. */
  lemma EmailCheckMatchesPattern(s: string)
    ensures IsValidEmail(s) <==> EmailMatches(s)
  {
    if IsValidEmail(s) {
      var at := Span(s, 0, IsAddressChar);
      var dot := LastDot(s, at + 2, |s| - 1).value;
      assert EmailMatchesAt(s, at, dot);
    }
    if EmailMatches(s) {
      var at: nat, dot: nat :| EmailMatchesAt(s, at, dot);
      assert Span(s, 0, IsAddressChar) == at;
    }
  }

  /** A plain address passes; one with a space, a second `@`, or a dot right after the `@` does not. */
  lemma EmailExamples()
    ensures IsValidEmail("a@b.co")
    ensures !IsValidEmail("a b@c.de")
    ensures !IsValidEmail("a@b@c.de")
    ensures !IsValidEmail("a@.de")
    ensures !IsValidEmail("a@b.")
  {
    EmailCheckMatchesPattern("a@b.co");
    assert EmailMatchesAt("a@b.co", 1, 3);
    EmailCheckMatchesPattern("a b@c.de");
    EmailCheckMatchesPattern("a@b@c.de");
    EmailCheckMatchesPattern("a@.de");
    EmailCheckMatchesPattern("a@b.");
  }

  // ------------------------------------------------------------------ submit

  /** The six inputs of the booking form; `None` where the element is missing. */
  datatype BookingForm = BookingForm(
    name: Option<string>,
    email: Option<string>,
    phone: Option<string>,
    date: Option<string>,
    time: Option<string>,
    topic: Option<string>)

  /** `getValue`: the trimmed value, or `''` for a missing element. */
  function FieldText(f: Option<string>): (t: string)
    ensures f.None? ==> t == ""
    ensures f.Some? ==> t == Trim(f.value)
  {
    match f
    case None => ""
    case Some(s) => Trim(s)
  }

  /** The values carried into the mail. */
  datatype Booking = Booking(name: string, email: string, phone: string, date: string, time: string, topic: string)

  function Values(form: BookingForm): Booking {
    Booking(FieldText(form.name), FieldText(form.email), FieldText(form.phone),
            FieldText(form.date), FieldText(form.time), FieldText(form.topic))
  }

  /** Every required field is non-empty after trimming; the topic is optional. */
  predicate RequiredFilled(b: Booking) {
    b.name != "" && b.email != "" && b.phone != "" && b.date != "" && b.time != ""
  }

  const MissingFieldsAlert := "Please fill in all required fields."
  const InvalidEmailAlert := "Please enter a valid email address."
  const MailFailedAlert := "Could not open email client. Please contact us directly at edunextep@gmail.com"

  /**
   * What a submit leaves: the alert shown, the booking handed to the mail
   * client, and whether the modal was closed and the form reset.
   */
  datatype Submitted = Submitted(alert: Option<string>, mailed: Option<Booking>, closed: bool)

  /** `handleBookingSubmit`. */
  function HandleBookingSubmit(form: BookingForm, navigationThrows: bool): (r: Submitted)
    ensures !RequiredFilled(Values(form)) ==> r == Submitted(Some(MissingFieldsAlert), None, false)
    ensures RequiredFilled(Values(form)) && !EmailMatches(Values(form).email) ==>
              r == Submitted(Some(InvalidEmailAlert), None, false)
    ensures r.closed <==> RequiredFilled(Values(form)) && EmailMatches(Values(form).email)
    ensures r.mailed.Some? <==> r.closed && !navigationThrows
    ensures r.mailed.Some? ==> r.mailed.value == Values(form) && r.alert.None?
    ensures r.closed && navigationThrows ==> r.alert == Some(MailFailedAlert)
  {
    var b := Values(form);
    EmailCheckMatchesPattern(b.email);
    if !RequiredFilled(b) then Submitted(Some(MissingFieldsAlert), None, false)
    else if !IsValidEmail(b.email) then Submitted(Some(InvalidEmailAlert), None, false)
    else if navigationThrows then Submitted(Some(MailFailedAlert), None, true)
    else Submitted(None, Some(b), true)
  }

  /** A booking with no topic is sent like any other. */
  lemma TopicIsOptional(form: BookingForm)
    requires RequiredFilled(Values(form)) && EmailMatches(Values(form).email)
    ensures HandleBookingSubmit(form.(topic := None), false).mailed == Some(Values(form).(topic := ""))
  {
  }

  /** Whitespace alone does not fill a required field. */
  lemma BlankNameIsMissing(form: BookingForm, navigationThrows: bool)
    requires form.name == Some(" \t ")
    ensures HandleBookingSubmit(form, navigationThrows).alert == Some(MissingFieldsAlert)
  {
  }
}

=== FILE: browser.dfy ===
/** Browser state the scripts read besides cookies. */
module Browser {
  import opened Wrappers

  /** `localStorage` as the scripts see it: unusable (every call throws), or holding an optional `'theme'` entry. */
  datatype LocalStorage = Unavailable | Available(theme: Option<string>)

  /** `localStorage.getItem('theme')` when it is non-empty (the value JavaScript treats as truthy). */
  function SavedTheme(ls: LocalStorage): (r: Option<string>)
    ensures r.Some? ==> ls.Available? && ls.theme == r && r.value != ""
    ensures r.None? && ls.Available? ==> ls.theme.None? || ls.theme.value == ""
  {
    if ls.Available? && ls.theme.Some? && ls.theme.value != "" then ls.theme else None
  }
}

=== FILE: consent.dfy ===
/**
 * Consent management of cookies.js: the consent cookie, the necessary
 * cookies set on acceptance, the analytics purge on rejection, the load-time
 * decision of `createCookieBanner`, `getUserStats` and `revokeConsent`.
 * `localStorage`, the clock and the random part of a new session id are
 * parameters.
 */
module Consent {
  import opened Wrappers
  import opened Text
  import opened Browser
  import opened CookieJar
  import Tracking

  /** The two buttons of the banner. */
  datatype Choice = NecessaryOnly | RejectAll

  /** The value `saveConsent` stores for a choice. */
  function ChoiceText(c: Choice): (t: string)
    ensures t == "necessary" <==> c == NecessaryOnly
    ensures t == "rejected" <==> c == RejectAll
  {
    match c
    case NecessaryOnly => "necessary"
    case RejectAll => "rejected"
  }

  /** `hasConsent`: a consent cookie of any value. */
  predicate HasConsent(jar: Jar) {
    GetCookie(jar, ConsentName).Some?
  }

  /** `deleteAllCookies`: removes the six analytics cookies and nothing else. */
  function DeleteAllCookies(jar: Jar): (jar': Jar)
    ensures forall k :: k in AnalyticsNames ==> k !in jar'
    ensures SameOutside(jar, jar', AnalyticsNames)
  {
    jar - AnalyticsNames
  }

  /** A new session id: `'sess_' + Date.now() + '_' + <random suffix>`. */
  function NewSessionId(now: nat, suffix: string): (id: string)
    ensures |id| >= 5 && id[..5] == "sess_"
  {
    "sess_" + NatToString(now) + "_" + suffix
  }

  /**
   * `setNecessaryCookies`: the theme cookie copies the stored theme, or
   * `'light'`, unless `localStorage` throws; the session cookie is created
   * only when there is no truthy one.
   */
  function SetNecessaryCookies(jar: Jar, ls: LocalStorage, now: nat, suffix: string): (jar': Jar)
    ensures ls.Unavailable? ==> GetCookie(jar', ThemeName) == GetCookie(jar, ThemeName)
    ensures ls.Available? && SavedTheme(ls).Some? ==> GetCookie(jar', ThemeName) == Some(Text(SavedTheme(ls).value))
    ensures ls.Available? && SavedTheme(ls).None? ==> GetCookie(jar', ThemeName) == Some(Text("light"))
    ensures IsTruthy(GetCookie(jar, SessionName)) ==> GetCookie(jar', SessionName) == GetCookie(jar, SessionName)
    ensures !IsTruthy(GetCookie(jar, SessionName)) ==> GetCookie(jar', SessionName) == Some(Text(NewSessionId(now, suffix)))
    ensures IsTruthy(GetCookie(jar', SessionName))
    ensures SameOutside(jar, jar', {ThemeName, SessionName})
  {
    var themed :=
      match ls
      case Unavailable => jar
      case Available(_) => jar[ThemeName := Text(SavedTheme(ls).GetOr("light"))];
    if IsTruthy(GetCookie(themed, SessionName)) then themed
    else themed[SessionName := Text(NewSessionId(now, suffix))]
  }

  /** Provisioning again, later, changes nothing: the session id survives page loads. */
  lemma SetNecessaryIdempotent(jar: Jar, ls: LocalStorage, now1: nat, suffix1: string, now2: nat, suffix2: string)
    ensures var once := SetNecessaryCookies(jar, ls, now1, suffix1);
            SetNecessaryCookies(once, ls, now2, suffix2) == once
  {
  }

  /**
   * `saveConsent`: stores the choice; acceptance provisions the necessary
   * cookies, rejection purges the analytics cookies.
   */
  function SaveConsent(jar: Jar, choice: Choice, ls: LocalStorage, now: nat, suffix: string): (jar': Jar)
    ensures GetCookie(jar', ConsentName) == Some(Text(ChoiceText(choice)))
    ensures choice == RejectAll ==> IsRejected(jar')
    ensures choice == NecessaryOnly ==> !IsRejected(jar')
  {
    var chosen := jar[ConsentName := Text(ChoiceText(choice))];
    match choice
    case NecessaryOnly => SetNecessaryCookies(chosen, ls, now, suffix)
    case RejectAll => DeleteAllCookies(chosen)[ConsentName := Text("rejected")]
  }

  /** Rejection leaves no analytics cookie and does not touch the theme or the session. */
  lemma RejectPurgesAnalytics(jar: Jar, ls: LocalStorage, now: nat, suffix: string)
    ensures var jar' := SaveConsent(jar, RejectAll, ls, now, suffix);
            && GetCookie(jar', ConsentName) == Some(Text("rejected"))
            && (forall k :: k in AnalyticsNames ==> k !in jar')
            && GetCookie(jar', ThemeName) == GetCookie(jar, ThemeName)
            && GetCookie(jar', SessionName) == GetCookie(jar, SessionName)
  {
  }

  /** Acceptance sets the theme from storage and keeps or creates the session; analytics cookies stay as they were. */
  lemma AcceptProvisions(jar: Jar, ls: LocalStorage, now: nat, suffix: string)
    ensures var jar' := SaveConsent(jar, NecessaryOnly, ls, now, suffix);
            && GetCookie(jar', ConsentName) == Some(Text("necessary"))
            && (ls.Available? ==> GetCookie(jar', ThemeName) == Some(Text(SavedTheme(ls).GetOr("light"))))
            && (IsTruthy(GetCookie(jar, SessionName)) ==> GetCookie(jar', SessionName) == GetCookie(jar, SessionName))
            && IsTruthy(GetCookie(jar', SessionName))
            && forall k :: k in AnalyticsNames ==> GetCookie(jar', k) == GetCookie(jar, k)
  {
    var chosen := jar[ConsentName := Text("necessary")];
    assert GetCookie(chosen, SessionName) == GetCookie(jar, SessionName);
    assert forall k :: k in AnalyticsNames ==> GetCookie(chosen, k) == GetCookie(jar, k);
  }

  /**
   * After a rejection nothing the tracker does changes the jar: every
   * updater, both deferred writers (as corrected) and a page load.
   */
  lemma RejectionStopsTracking(jar: Jar, ls: LocalStorage, now: nat, suffix: string, v: Tracking.Visit,
                               t: Tracking.FormTracker, e: Tracking.Interaction, startTime: int, later: int)
    ensures var rejected := SaveConsent(jar, RejectAll, ls, now, suffix);
            && Tracking.InitUserTracking(rejected, v) == Tracking.Tracked(rejected, None, None)
            && Tracking.TrackPageView(rejected, v.path, v.now) == rejected
            && Tracking.TrackUserHabits(rejected, v.hour, v.width) == (rejected, false)
            && Tracking.TrackFormInteractions(rejected, v.hasBookingForm, v.hasOpenButton).None?
            && Tracking.WriteTimeSpent(rejected, startTime, later) == rejected
            && Tracking.OnInteraction(t, e, rejected).1 == rejected
            && OnLoad(rejected, ls, suffix, v) == Loaded(Tracking.Tracked(rejected, None, None), false)
  {
  }

  /**
   * The deferred writers as written: a visitor who accepted, then revoked
   * and rejected in the same page, still gets the habits cookie and the
   * form counters written afterwards.
   */
  lemma RejectedPageStillWrites(jar: Jar, ls: LocalStorage, now: nat, suffix: string,
                                t: Tracking.FormTracker, startTime: int, later: int)
    ensures var rejected := SaveConsent(jar, RejectAll, ls, now, suffix);
            && HabitsName !in rejected && FormName !in rejected
            && HabitsName in Tracking.WriteTimeSpentAsWritten(rejected, startTime, later)
            && FormName in Tracking.OnInteractionAsWritten(t, Tracking.CtaClick, rejected).1
  {
    var rejected := SaveConsent(jar, RejectAll, ls, now, suffix);
    Tracking.UnloadRecreatesHabits(rejected, startTime, later);
    Tracking.ClickRecreatesCounters(t, rejected);
  }

  /** What a page load leaves: the tracking outcome and whether the banner is shown. */
  datatype Loaded = Loaded(tracked: Tracking.Tracked, bannerShown: bool)

  /**
   * `createCookieBanner` at page load: with consent `'necessary'` it
   * provisions and tracks; with any other stored consent it does nothing;
   * without consent it shows the banner.
   */
  function OnLoad(jar: Jar, ls: LocalStorage, suffix: string, v: Tracking.Visit): (r: Loaded)
    ensures r.bannerShown <==> !HasConsent(jar)
    ensures !HasConsent(jar) || GetCookie(jar, ConsentName) != Some(Text("necessary")) ==>
              r.tracked == Tracking.Tracked(jar, None, None)
    ensures GetCookie(jar, ConsentName) == Some(Text("necessary")) ==>
              r.tracked == Tracking.InitUserTracking(SetNecessaryCookies(jar, ls, v.now, suffix), v)
  {
    if HasConsent(jar) then
      if GetCookie(jar, ConsentName) == Some(Text("necessary")) then
        Loaded(Tracking.InitUserTracking(SetNecessaryCookies(jar, ls, v.now, suffix), v), false)
      else Loaded(Tracking.Tracked(jar, None, None), false)
    else Loaded(Tracking.Tracked(jar, None, None), true)
  }

  /** A returning visitor who accepted keeps the same session id across loads. */
  lemma SessionStableAcrossLoads(jar: Jar, ls: LocalStorage, suffix1: string, suffix2: string,
                                 v1: Tracking.Visit, v2: Tracking.Visit)
    requires GetCookie(jar, ConsentName) == Some(Text("necessary"))
    ensures var first := OnLoad(jar, ls, suffix1, v1).tracked.jar;
            GetCookie(first, ConsentName) == Some(Text("necessary"))
            && GetCookie(OnLoad(first, ls, suffix2, v2).tracked.jar, SessionName) == GetCookie(first, SessionName)
  {
    NecessaryNamesApart();
    var provisioned := SetNecessaryCookies(jar, ls, v1.now, suffix1);
    var first := OnLoad(jar, ls, suffix1, v1).tracked.jar;
    assert first == Tracking.InitUserTracking(provisioned, v1).jar;
    assert GetCookie(first, SessionName) == GetCookie(provisioned, SessionName);
    assert GetCookie(first, ConsentName) == Some(Text("necessary"));
  }

  /** Accepting does not touch the stored visit count. */
  lemma AcceptKeepsVisits(jar: Jar, ls: LocalStorage, now: nat, suffix: string)
    ensures GetCookie(SaveConsent(jar, NecessaryOnly, ls, now, suffix), VisitsName) == GetCookie(jar, VisitsName)
    ensures ReadVisits(SaveConsent(jar, NecessaryOnly, ls, now, suffix)) == ReadVisits(jar)
  {
    NecessaryNamesApart();
    var chosen := jar[ConsentName := Text("necessary")];
    assert GetCookie(chosen, VisitsName) == GetCookie(jar, VisitsName);
    assert VisitsName !in {ThemeName, SessionName};
  }

  /** Tracking never writes the consent cookie. */
  lemma TrackingKeepsConsent(jar: Jar, v: Tracking.Visit)
    ensures GetCookie(Tracking.InitUserTracking(jar, v).jar, ConsentName) == GetCookie(jar, ConsentName)
  {
    NecessaryNamesApart();
  }

  /** The "Accept Necessary Only" button: save, then track. */
  function AcceptNecessary(jar: Jar, ls: LocalStorage, suffix: string, v: Tracking.Visit): (r: Tracking.Tracked)
    ensures GetCookie(r.jar, ConsentName) == Some(Text("necessary"))
    ensures VisitsName in r.jar && r.jar[VisitsName] == Count(ReadVisits(jar) + 1)
  {
    var saved := SaveConsent(jar, NecessaryOnly, ls, v.now, suffix);
    AcceptKeepsVisits(jar, ls, v.now, suffix);
    NecessaryIsTracked(jar, saved, v);
    Tracking.InitUserTracking(saved, v)
  }

  /** Under "necessary" consent the tracking pass runs, counts the visit and leaves the consent alone. */
  lemma NecessaryIsTracked(jar: Jar, saved: Jar, v: Tracking.Visit)
    requires GetCookie(saved, ConsentName) == Some(Text("necessary"))
    requires ReadVisits(saved) == ReadVisits(jar)
    ensures GetCookie(Tracking.InitUserTracking(saved, v).jar, ConsentName) == Some(Text("necessary"))
    ensures VisitsName in Tracking.InitUserTracking(saved, v).jar
    ensures Tracking.InitUserTracking(saved, v).jar[VisitsName] == Count(ReadVisits(jar) + 1)
  {
    TrackingKeepsConsent(saved, v);
  }

  /** The "Reject All" button. */
  function RejectAllCookies(jar: Jar, ls: LocalStorage, now: nat, suffix: string): (jar': Jar)
    ensures IsRejected(jar') && forall k :: k in AnalyticsNames ==> k !in jar'
  {
    SaveConsent(jar, RejectAll, ls, now, suffix)
  }

  /**
   * `revokeConsent`: deletes the consent cookie and the analytics cookies
   * and shows the banner again. The theme and session cookies stay.
   */
  function RevokeConsent(jar: Jar, ls: LocalStorage, suffix: string, v: Tracking.Visit): (r: Loaded)
    ensures !HasConsent(r.tracked.jar) && r.bannerShown
    ensures forall k :: k in AnalyticsNames ==> k !in r.tracked.jar
    ensures GetCookie(r.tracked.jar, ThemeName) == GetCookie(jar, ThemeName)
    ensures GetCookie(r.tracked.jar, SessionName) == GetCookie(jar, SessionName)
  {
    OnLoad(DeleteAllCookies(jar - {ConsentName}), ls, suffix, v)
  }

  /** The object `getUserStats` returns. */
  datatype Stats = Stats(visits: int, lastVisit: Option<Cookie>, habits: Habits, pageViews: seq<PageView>, forms: FormStats)

  /** `null`, the stats, or the exception a malformed stored value makes `JSON.parse` throw. */
  datatype StatsResult = NoStats | Snapshot(stats: Stats) | ParseFailure

  /** `getUserStats`. */
  function GetUserStats(jar: Jar): (r: StatsResult)
    ensures r.NoStats? <==> IsRejected(jar)
    ensures r.ParseFailure? <==>
              !IsRejected(jar) && (ReadHabits(jar).None? || ReadViews(jar).None? || ReadFormStats(jar).None?)
    ensures r.Snapshot? ==> r.stats.visits == ReadVisits(jar) && r.stats.lastVisit == GetCookie(jar, LastVisitName)
    ensures r.Snapshot? ==> Some(r.stats.habits) == ReadHabits(jar) && Some(r.stats.pageViews) == ReadViews(jar)
                            && Some(r.stats.forms) == ReadFormStats(jar)
  {
    if IsRejected(jar) then NoStats
    else if ReadHabits(jar).None? || ReadViews(jar).None? || ReadFormStats(jar).None? then ParseFailure
    else Snapshot(Stats(ReadVisits(jar), GetCookie(jar, LastVisitName), ReadHabits(jar).value,
                        ReadViews(jar).value, ReadFormStats(jar).value))
  }

  /** The stats of a page load report the visit that load counted. */
  lemma StatsSeeTheVisit(jar: Jar, ls: LocalStorage, suffix: string, v: Tracking.Visit)
    requires GetCookie(jar, ConsentName) == Some(Text("necessary"))
    ensures var after := OnLoad(jar, ls, suffix, v).tracked.jar;
            var stats := GetUserStats(after);
            stats.Snapshot? ==> stats.stats.visits == ReadVisits(jar) + 1
  {
    var provisioned := SetNecessaryCookies(jar, ls, v.now, suffix);
    assert GetCookie(provisioned, VisitsName) == GetCookie(jar, VisitsName);
    assert !IsRejected(provisioned);
  }
}

=== FILE: cookie_jar.dfy ===
/**
 * The cookie jar of the consent and tracking store (cookies.js): the cookie
 * names, the values the store keeps under them, and the defensive reads.
 *
 * Cells hold values already parsed: the store writes strings for the consent,
 * theme, session, referrer and last-visit cookies, a number for the visit
 * count, and JSON for the page-view list, the habits record and the form
 * counters. A cell of the wrong kind stands for text that `JSON.parse`
 * rejects; text that parses to JSON of another shape is not modelled.
 */
module CookieJar {
  import opened Wrappers

  const ConsentName := "nextep_cookie_consent"
  const ThemeName := "nextep_theme"
  const SessionName := "nextep_session"

  const VisitsName := "nextep_visits"
  const LastVisitName := "nextep_last_visit"
  const HabitsName := "nextep_habits"
  const PageViewsName := "nextep_page_views"
  const ReferrerName := "nextep_referrer"
  const FormName := "nextep_form_interaction"

  /** The six analytics cookies, the only ones `deleteAllCookies` removes. */
  const AnalyticsNames: set<string> := {VisitsName, LastVisitName, HabitsName, PageViewsName, ReferrerName, FormName}

  /** One entry of the page-view list. */
  datatype PageView = PageView(page: string, count: int, firstVisit: int, lastVisit: int)

  datatype TimeSlot = Night | Morning | Afternoon | Evening
  datatype Device = Mobile | Desktop

  /**
   * The habits record. A histogram bucket missing from its map counts as 0
   * (`(x || 0) + 1`); `lastSessionDuration` is absent until the first unload.
   */
  datatype Habits = Habits(
    preferredTime: map<TimeSlot, int>,
    deviceType: map<Device, int>,
    avgScrollDepth: int,
    sessionCount: int,
    totalTimeSpent: int,
    lastSessionDuration: Option<int>)

  /** What `JSON.parse('{}')` gives once every field is read with `|| 0`. */
  const NoHabits := Habits(map[], map[], 0, 0, 0, None)

  /** The form-interaction counters. */
  datatype FormStats = FormStats(bookingSubmissions: int, modalOpens: int, ctaClicks: int, lastBookingAttempt: Option<int>)

  const NoFormStats := FormStats(0, 0, 0, None)

  datatype Cookie =
    | Text(text: string)
    | Count(n: int)
    | Views(views: seq<PageView>)
    | HabitsCell(habits: Habits)
    | FormCell(stats: FormStats)

  type Jar = map<string, Cookie>

  /** `getCookie`: the value stored under `name`, `None` for JavaScript's `null`. */
  function GetCookie(jar: Jar, name: string): (r: Option<Cookie>)
    ensures r.Some? <==> name in jar
    ensures r.Some? ==> r.value == jar[name]
  {
    if name in jar then Some(jar[name]) else None
  }

  /** A cookie read JavaScript treats as true: present and not the empty string. */
  predicate IsTruthy(c: Option<Cookie>) {
    c.Some? && c.value != Text("")
  }

  /** The consent cookie reads `'rejected'`: the test every tracking updater starts with. */
  predicate IsRejected(jar: Jar) {
    GetCookie(jar, ConsentName) == Some(Text("rejected"))
  }

  /** `parseInt(getCookie(visits)) || 0`, for the values the store writes. */
  function ReadVisits(jar: Jar): (n: int)
    ensures VisitsName in jar && jar[VisitsName].Count? ==> n == jar[VisitsName].n
    ensures VisitsName !in jar ==> n == 0
  {
    match GetCookie(jar, VisitsName)
    case Some(Count(n)) => n
    case _ => 0
  }

  /**
   * `JSON.parse(getCookie(name) || fallback)`: a missing or empty cookie
   * reads as the fallback; `None` is the parse failure (a throw).
   */
  function ReadViews(jar: Jar): (r: Option<seq<PageView>>)
    ensures !IsTruthy(GetCookie(jar, PageViewsName)) ==> r == Some([])
    ensures PageViewsName in jar && jar[PageViewsName].Views? ==> r == Some(jar[PageViewsName].views)
    ensures r.None? <==> IsTruthy(GetCookie(jar, PageViewsName)) && !jar[PageViewsName].Views?
  {
    match GetCookie(jar, PageViewsName)
    case None => Some([])
    case Some(Text(t)) => if t == "" then Some([]) else None
    case Some(Views(v)) => Some(v)
    case Some(_) => None
  }

  function ReadHabits(jar: Jar): (r: Option<Habits>)
    ensures !IsTruthy(GetCookie(jar, HabitsName)) ==> r == Some(NoHabits)
    ensures HabitsName in jar && jar[HabitsName].HabitsCell? ==> r == Some(jar[HabitsName].habits)
    ensures r.None? <==> IsTruthy(GetCookie(jar, HabitsName)) && !jar[HabitsName].HabitsCell?
  {
    match GetCookie(jar, HabitsName)
    case None => Some(NoHabits)
    case Some(Text(t)) => if t == "" then Some(NoHabits) else None
    case Some(HabitsCell(h)) => Some(h)
    case Some(_) => None
  }

  function ReadFormStats(jar: Jar): (r: Option<FormStats>)
    ensures !IsTruthy(GetCookie(jar, FormName)) ==> r == Some(NoFormStats)
    ensures FormName in jar && jar[FormName].FormCell? ==> r == Some(jar[FormName].stats)
    ensures r.None? <==> IsTruthy(GetCookie(jar, FormName)) && !jar[FormName].FormCell?
  {
    match GetCookie(jar, FormName)
    case None => Some(NoFormStats)
    case Some(Text(t)) => if t == "" then Some(NoFormStats) else None
    case Some(FormCell(f)) => Some(f)
    case Some(_) => None
  }

  /** The necessary cookies and the consent cookie are not analytics cookies, and all three names differ. */
  lemma NecessaryNamesApart()
    ensures ConsentName !in AnalyticsNames && ThemeName !in AnalyticsNames && SessionName !in AnalyticsNames
    ensures ConsentName != ThemeName && ConsentName != SessionName && ThemeName != SessionName
  {
  }

  /** `jar` and `jar'` agree everywhere except possibly on `names`. */
  predicate SameOutside(jar: Jar, jar': Jar, names: set<string>) {
    && (forall k :: k in jar && k !in names ==> k in jar' && jar'[k] == jar[k])
    && (forall k :: k in jar' && k !in names ==> k in jar)
  }

  /** Two steps that each keep everything outside `names` together keep it too. */
  lemma SameOutsideChain(a: Jar, b: Jar, c: Jar, n1: set<string>, n2: set<string>, names: set<string>)
    requires SameOutside(a, b, n1) && SameOutside(b, c, n2)
    requires n1 <= names && n2 <= names
    ensures SameOutside(a, c, names)
  {
  }

  /** A step that keeps everything outside `names` leaves the reads of any other cookie alone. */
  lemma SameOutsideKeepsCookie(a: Jar, b: Jar, names: set<string>, name: string)
    requires SameOutside(a, b, names) && name !in names
    ensures GetCookie(b, name) == GetCookie(a, name)
  {
  }
}

=== FILE: csrf.dfy ===
/**
 * The form guard's CSRF token (security.js): a 32-byte random value written
 * as lower-case hex, cached in session storage for thirty minutes. The
 * random bytes and the clock are parameters; session storage is a slot that
 * may be unavailable (every access then throws and is swallowed).
 */
module Csrf {
  import opened Text

  const TokenBytes := 32
  const TokenLifetimeMs := 30 * 60 * 1000

  /** The bytes written as hex pairs, byte `i` at positions `2i` and `2i+1`. */
  function HexEncode(bytes: seq<byte>): (r: string)
    ensures |r| == 2 * |bytes|
    ensures forall k :: 0 <= k < |r| ==> IsHexChar(r[k])
    ensures forall i :: 0 <= i < |bytes| ==> r[2 * i] == ByteToHex(bytes[i])[0] && r[2 * i + 1] == ByteToHex(bytes[i])[1]
  {
    if |bytes| == 0 then []
    else
      var rest := HexEncode(bytes[1..]);
      var r := ByteToHex(bytes[0]) + rest;
      forall i | 1 <= i < |bytes|
        ensures r[2 * i] == ByteToHex(bytes[i])[0] && r[2 * i + 1] == ByteToHex(bytes[i])[1]
      {
        var j := i - 1;
        assert 2 * i == 2 * j + 2;
        assert bytes[1..][j] == bytes[i];
        assert r[2 * j + 2] == rest[2 * j] && r[2 * j + 3] == rest[2 * j + 1];
      }
      r
  }

  /** Reads hex pairs back into bytes. */
  function HexDecode(s: string): (bytes: seq<byte>)
    requires |s| % 2 == 0
    requires forall k :: 0 <= k < |s| ==> IsHexChar(s[k])
    ensures |bytes| == |s| / 2
  {
    if |s| == 0 then []
    else [16 * HexValue(s[0]) + HexValue(s[1])] + HexDecode(s[2..])
  }

  /** Decoding the hex text gives back the bytes it was made from. */
  lemma {:induction false} HexRoundTrip(bytes: seq<byte>)
    ensures HexDecode(HexEncode(bytes)) == bytes
  {
    if |bytes| > 0 {
      var r := HexEncode(bytes);
      assert r[2..] == HexEncode(bytes[1..]);
      HexRoundTrip(bytes[1..]);
    }
  }

  /** `generateToken` over the 32 bytes the random source supplied. */
  function GenerateToken(random: seq<byte>): (token: string)
    requires |random| == TokenBytes
    ensures |token| == 64
    ensures forall k :: 0 <= k < |token| ==> IsHexChar(token[k])
    ensures HexDecode(token) == random
  {
    HexRoundTrip(random);
    HexEncode(random)
  }

  /** Distinct random bytes give distinct tokens. */
  lemma TokensDistinct(r1: seq<byte>, r2: seq<byte>)
    requires |r1| == TokenBytes && |r2| == TokenBytes && r1 != r2
    ensures GenerateToken(r1) != GenerateToken(r2)
  {
  }

  /** What the session-storage key holds: nothing, a parsed `{token, expiry}`, or text that does not parse. */
  datatype Slot = Empty | Stored(token: string, expiry: int) | Unreadable

  datatype Session = Session(available: bool, slot: Slot)

  /** A token handed out and the session storage afterwards. */
  datatype Issued = Issued(token: string, session: Session)

  /** `refreshCSRFToken`: a new token, stored with a thirty-minute expiry when storage works. */
  function RefreshCsrfToken(sess: Session, now: int, random: seq<byte>): (r: Issued)
    requires |random| == TokenBytes
    ensures r.token == GenerateToken(random)
    ensures sess.available ==> r.session == Session(true, Stored(r.token, now + TokenLifetimeMs))
    ensures !sess.available ==> r.session == sess
  {
    var token := GenerateToken(random);
    if sess.available then Issued(token, Session(true, Stored(token, now + TokenLifetimeMs)))
    else Issued(token, sess)
  }

  /** A stored token still valid at `now`. */
  predicate HasLiveToken(sess: Session, now: int) {
    sess.available && sess.slot.Stored? && now < sess.slot.expiry
  }

  /** `getCSRFToken`: the cached token while it lives, otherwise a refresh. */
  function GetCsrfToken(sess: Session, now: int, random: seq<byte>): (r: Issued)
    requires |random| == TokenBytes
    ensures HasLiveToken(sess, now) ==> r == Issued(sess.slot.token, sess)
    ensures !HasLiveToken(sess, now) ==> r == RefreshCsrfToken(sess, now, random)
    ensures !HasLiveToken(sess, now) ==> r.token == GenerateToken(random)
    ensures !HasLiveToken(sess, now) && !sess.available ==> r.session == sess
    ensures !HasLiveToken(sess, now) && sess.available ==>
              r.session.slot == Stored(r.token, now + TokenLifetimeMs)
  {
    if HasLiveToken(sess, now) then Issued(sess.slot.token, sess)
    else RefreshCsrfToken(sess, now, random)
  }

  /** Asking again before the cached token expires returns the same token, whatever the random source says. */
  lemma TokenStableWhileLive(sess: Session, now: int, later: int, r1: seq<byte>, r2: seq<byte>)
    requires |r1| == TokenBytes && |r2| == TokenBytes
    requires sess.available && now <= later < now + TokenLifetimeMs
    requires !HasLiveToken(sess, now) || later < sess.slot.expiry
    ensures GetCsrfToken(GetCsrfToken(sess, now, r1).session, later, r2).token == GetCsrfToken(sess, now, r1).token
  {
  }

  /** Once thirty minutes have passed since a refresh, the next request rotates the token. */
  lemma TokenRotatesAfterExpiry(sess: Session, now: int, later: int, r1: seq<byte>, r2: seq<byte>)
    requires |r1| == TokenBytes && |r2| == TokenBytes
    requires later >= now + TokenLifetimeMs
    ensures GetCsrfToken(RefreshCsrfToken(sess, now, r1).session, later, r2).token == GenerateToken(r2)
  {
  }
}

=== FILE: form_guard.dfy ===
/**
 * The form guard's submission check (`performSecurityChecks` in
 * security.js) and its helpers: the honeypot, the minimum fill time, the
 * per-field length limits and `sanitizeFormData`. The guard's own state is
 * the rate limiter's timestamp list and the time the form was last opened;
 * the clock is a parameter.
 */
module FormGuard {
  import opened Wrappers
  import opened Text
  import RateLimit
  import opened Sanitize

  const MinSubmitTimeMs := 2000

  /** A submitted field: its key and value, in `Object.entries` order. */
  type Field = (string, FieldValue)

  /** What the guard keeps between calls. */
  datatype GuardState = GuardState(submissions: seq<int>, formOpenTime: Option<int>)

  const InitialState := GuardState([], None)

  /**
   * Property names every object inherits from `Object.prototype`: looking
   * one of them up in the limits table yields a function or an object, not
   * a number, and `length > limit` is then false.
   */
  const InheritedKeys: set<string> := {
    "constructor", "hasOwnProperty", "isPrototypeOf", "propertyIsEnumerable",
    "toLocaleString", "toString", "valueOf", "__proto__",
    "__defineGetter__", "__defineSetter__", "__lookupGetter__", "__lookupSetter__"
  }

  /** `maxInputLengths[key] || maxInputLengths.default`; `None` where no limit takes effect. */
  function MaxLength(key: string): (limit: Option<nat>)
    ensures key == "name" ==> limit == Some(100)
    ensures key == "email" ==> limit == Some(254)
    ensures key == "phone" ==> limit == Some(20)
    ensures key == "message" ==> limit == Some(2000)
    ensures key !in {"name", "email", "phone", "message"} + InheritedKeys ==> limit == Some(500)
    ensures limit.None? <==> key in InheritedKeys
  {
    if key == "name" then Some(100)
    else if key == "email" then Some(254)
    else if key == "phone" then Some(20)
    else if key == "message" then Some(2000)
    else if key in InheritedKeys then None
    else Some(500)
  }

  /** Only string values are measured. */
  predicate IsTooLong(f: Field) {
    f.1.Str? && MaxLength(f.0).Some? && |f.1.s| > MaxLength(f.0).value
  }

  /** `isHoneypotTriggered`: the hidden field exists and holds anything at all. */
  predicate IsHoneypotTriggered(honeypot: Option<string>) {
    honeypot.Some? && |honeypot.value| > 0
  }

  /** `recordFormOpen`. */
  function RecordFormOpen(st: GuardState, now: int): (st': GuardState)
    ensures st'.formOpenTime == Some(now) && st'.submissions == st.submissions
  {
    st.(formOpenTime := Some(now))
  }

  /**
   * `isSubmissionTooFast`: never before the form was opened (an open time
   * of 0 is falsy and counts as never), otherwise less than two seconds
   * since it was.
   */
  predicate IsSubmissionTooFast(st: GuardState, now: int) {
    match st.formOpenTime
    case None => false
    case Some(t) => t != 0 && now - t < MinSubmitTimeMs
  }

  /** Opening the form at a non-zero time makes submissions too fast for exactly the next two seconds. */
  lemma FillTimeAfterOpen(st: GuardState, openTime: int, elapsed: int)
    requires openTime != 0
    ensures IsSubmissionTooFast(RecordFormOpen(st, openTime), openTime + elapsed) <==> elapsed < 2000
  {
  }

  /** Index of the first field the content check refuses, scanning in entry order. */
  function FirstUnsafe(fields: seq<Field>): (r: Option<nat>)
    ensures r.None? <==> forall k :: 0 <= k < |fields| ==> IsInputSafe(fields[k].1)
    ensures r.Some? ==> r.value < |fields| && !IsInputSafe(fields[r.value].1)
  {
    if |fields| == 0 then None
    else if !IsInputSafe(fields[0].1) then Some(0)
    else
      match FirstUnsafe(fields[1..])
      case None => None
      case Some(k) => Some(k + 1)
  }

  /** Index of the first field over its length limit. */
  function FirstTooLong(fields: seq<Field>): (r: Option<nat>)
    ensures r.None? <==> forall k :: 0 <= k < |fields| ==> !IsTooLong(fields[k])
    ensures r.Some? ==> r.value < |fields| && IsTooLong(fields[r.value])
                        && forall k :: 0 <= k < r.value ==> !IsTooLong(fields[k])
  {
    if |fields| == 0 then None
    else if IsTooLong(fields[0]) then Some(0)
    else
      match FirstTooLong(fields[1..])
      case None => None
      case Some(k) => Some(k + 1)
  }

  datatype Reason = RateLimited(waitMinutes: nat) | TooFast | UnsafeContent | TooLong(key: string)

  /** `Passed`, the silent bot outcome, or a refusal the visitor is told about. */
  datatype Verdict = Passed | Bot | Refused(reason: Reason)

  /**
   * `performSecurityChecks`: rate limit, honeypot, fill time, content of
   * every field, then length of every field; the first failing check
   * decides. The wait it announces is `getWaitTime` as written (see
   * `RateLimit.WaitMinutesAsWritten`); it is at least a minute whenever the
   * guard holds no more than three timestamps.
   */
  function PerformSecurityChecks(st: GuardState, honeypot: Option<string>, fields: seq<Field>, now: int): (v: Verdict)
    ensures RateLimit.IsRateLimited(st.submissions, now) ==>
              v == Refused(RateLimited(RateLimit.WaitMinutesAsWritten(st.submissions, now)))
    ensures RateLimit.IsRateLimited(st.submissions, now) && |st.submissions| <= RateLimit.MaxSubmissions ==>
              v.reason.waitMinutes >= 1
    ensures !RateLimit.IsRateLimited(st.submissions, now) && IsHoneypotTriggered(honeypot) ==> v == Bot
    ensures v == Bot ==> IsHoneypotTriggered(honeypot)
    ensures (!RateLimit.IsRateLimited(st.submissions, now) && !IsHoneypotTriggered(honeypot)
             && IsSubmissionTooFast(st, now)) ==> v == Refused(TooFast)
    ensures v == Refused(UnsafeContent) <==>
              && !RateLimit.IsRateLimited(st.submissions, now) && !IsHoneypotTriggered(honeypot)
              && !IsSubmissionTooFast(st, now)
              && exists k :: 0 <= k < |fields| && !IsInputSafe(fields[k].1)
    ensures v.Refused? && v.reason.TooLong? ==>
              (forall k :: 0 <= k < |fields| ==> IsInputSafe(fields[k].1))
              && exists k :: 0 <= k < |fields| && IsTooLong(fields[k]) && fields[k].0 == v.reason.key
    ensures (&& !RateLimit.IsRateLimited(st.submissions, now) && !IsHoneypotTriggered(honeypot)
             && !IsSubmissionTooFast(st, now)
             && (forall k :: 0 <= k < |fields| ==> IsInputSafe(fields[k].1))
             && FirstTooLong(fields).Some?) ==>
              v == Refused(TooLong(fields[FirstTooLong(fields).value].0))
    ensures v == Passed <==>
              && !RateLimit.IsRateLimited(st.submissions, now) && !IsHoneypotTriggered(honeypot)
              && !IsSubmissionTooFast(st, now)
              && (forall k :: 0 <= k < |fields| ==> IsInputSafe(fields[k].1) && !IsTooLong(fields[k]))
  {
    if RateLimit.IsRateLimited(st.submissions, now) then
      assert |st.submissions| <= RateLimit.MaxSubmissions ==> RateLimit.WaitMinutesAsWritten(st.submissions, now) >= 1 by {
        if |st.submissions| <= RateLimit.MaxSubmissions {
          RateLimit.GuardedWaitsAgree(st.submissions, now);
        }
      }
      Refused(RateLimited(RateLimit.WaitMinutesAsWritten(st.submissions, now)))
    else if IsHoneypotTriggered(honeypot) then Bot
    else if IsSubmissionTooFast(st, now) then Refused(TooFast)
    else if FirstUnsafe(fields).Some? then Refused(UnsafeContent)
    else match FirstTooLong(fields)
      case Some(k) => Refused(TooLong(fields[k].0))
      case None => Passed
  }

  /**
   * The check as evidently intended: a refusal for the rate limit announces
   * the minutes until the oldest counted submission expires, which is at
   * least one and, with the three counted submissions a guarded caller can
   * reach, enough for the limit to lift. Every other outcome is the one
   * `PerformSecurityChecks` gives.
   */
  function PerformSecurityChecksCorrected(st: GuardState, honeypot: Option<string>, fields: seq<Field>, now: int): (v: Verdict)
    ensures RateLimit.IsRateLimited(st.submissions, now) ==>
              v.Refused? && v.reason.RateLimited? && v.reason.waitMinutes >= 1
    ensures RateLimit.IsRateLimited(st.submissions, now) && |RateLimit.Recent(st.submissions, now)| == RateLimit.MaxSubmissions ==>
              !RateLimit.IsRateLimited(st.submissions, now + v.reason.waitMinutes * RateLimit.MinuteMs)
    ensures !RateLimit.IsRateLimited(st.submissions, now) ==> v == PerformSecurityChecks(st, honeypot, fields, now)
  {
    if RateLimit.IsRateLimited(st.submissions, now) then
      RateLimit.CorrectedWaitHolds(st.submissions, now);
      Refused(RateLimited(RateLimit.WaitMinutes(st.submissions, now)))
    else PerformSecurityChecks(st, honeypot, fields, now)
  }

  /** A guard that never holds more than three timestamps gives the same verdict as written and corrected. */
  lemma GuardedChecksAgree(st: GuardState, honeypot: Option<string>, fields: seq<Field>, now: int)
    requires |st.submissions| <= RateLimit.MaxSubmissions
    ensures PerformSecurityChecksCorrected(st, honeypot, fields, now) == PerformSecurityChecks(st, honeypot, fields, now)
  {
    if RateLimit.IsRateLimited(st.submissions, now) {
      RateLimit.GuardedWaitsAgree(st.submissions, now);
    }
  }

  /**
   * On the stale-minimum list the program as written refuses and announces
   * a wait of 0 minutes, while the corrected check announces 4.
   */
  lemma StaleListAnnouncesNoWait(honeypot: Option<string>, fields: seq<Field>)
    ensures PerformSecurityChecks(GuardState([0, 200000, 250000, 299000], None), honeypot, fields, 310000)
            == Refused(RateLimited(0))
    ensures PerformSecurityChecksCorrected(GuardState([0, 200000, 250000, 299000], None), honeypot, fields, 310000)
            == Refused(RateLimited(4))
  {
    RateLimit.StaleScenarioWaits();
  }

  /** The text shown to the visitor for each refusal. */
  function Message(r: Reason): (m: string)
    ensures |m| > 0
  {
    match r
    case RateLimited(m) => "Too many submissions. Please wait " + NatToString(m) + " minute(s) before trying again."
    case TooFast => "Please take a moment to review your information before submitting."
    case UnsafeContent => "Invalid characters detected. Please remove special characters and try again."
    case TooLong(key) => "The " + key + " field is too long. Please shorten your input."
  }

  /** The wait message names its minutes in decimal, right after its fixed 34-character lead. */
  lemma MessageNamesMinutes(minutes: nat)
    ensures var m := Message(RateLimited(minutes));
            var digits := NatToString(minutes);
            34 + |digits| <= |m| && m[34..34 + |digits|] == digits
  {
    MiddleOfThree("Too many submissions. Please wait ", NatToString(minutes), " minute(s) before trying again.");
  }

  /** The length message names the field's key right after "The ". */
  lemma MessageNamesKey(key: string)
    ensures var m := Message(TooLong(key));
            4 + |key| <= |m| && m[..4] == "The " && m[4..4 + |key|] == key
  {
    MiddleOfThree("The ", key, " field is too long. Please shorten your input.");
  }

  /** The first and middle parts of a three-part text can be read back by slicing. */
  lemma MiddleOfThree(a: string, b: string, c: string)
    ensures |a| + |b| <= |a + b + c|
    ensures (a + b + c)[..|a|] == a && (a + b + c)[|a|..|a| + |b|] == b
  {
  }

  /** The object `performSecurityChecks` returns: `passed`, `error` (null when absent) and `isBot`. */
  datatype CheckResult = CheckResult(passed: bool, error: Option<string>, isBot: bool)

  function ToCheckResult(v: Verdict): (r: CheckResult)
    ensures r.passed <==> v == Passed
    ensures r.isBot <==> v == Bot
    ensures !r.passed && r.error.None? <==> v == Bot
    ensures v.Refused? ==> r.error == Some(Message(v.reason))
  {
    match v
    case Passed => CheckResult(true, None, false)
    case Bot => CheckResult(false, None, true)
    case Refused(reason) => CheckResult(false, Some(Message(reason)), false)
  }

  /** A filled honeypot is never reported to the visitor, whatever else was submitted, unless rate limited. */
  lemma HoneypotFailsSilently(st: GuardState, honeypot: Option<string>, fields: seq<Field>, now: int)
    requires IsHoneypotTriggered(honeypot) && !RateLimit.IsRateLimited(st.submissions, now)
    ensures var r := ToCheckResult(PerformSecurityChecks(st, honeypot, fields, now));
            !r.passed && r.error.None? && r.isBot
  {
  }

  /** Content is checked over every field before any length: an unsafe field wins over an earlier over-long one. */
  lemma ContentBeforeLength(st: GuardState, fields: seq<Field>, now: int, i: nat, j: nat)
    requires !RateLimit.IsRateLimited(st.submissions, now) && !IsSubmissionTooFast(st, now)
    requires i < j < |fields| && IsTooLong(fields[i]) && !IsInputSafe(fields[j].1)
    ensures PerformSecurityChecks(st, None, fields, now) == Refused(UnsafeContent)
  {
  }

  /**
   * The one key whose assignment on a fresh object literal runs an inherited
   * setter (`Object.prototype.__proto__`): a string assigned there is
   * ignored and no own property is created.
   */
  const ProtoKey := "__proto__"

  /**
   * `sanitizeFormData`: every entry's value sanitised and stored under its
   * key in a fresh object, in entry order; the `__proto__` entry is lost.
   */
  function SanitizeFormData(fields: seq<Field>): (r: seq<(string, string)>)
    ensures |r| <= |fields|
    ensures forall k :: 0 <= k < |r| ==> r[k].0 != ProtoKey
    ensures forall k :: 0 <= k < |r| ==> '<' !in r[k].1 && '>' !in r[k].1
  {
    if |fields| == 0 then []
    else
      var rest := SanitizeFormData(fields[1..]);
      if fields[0].0 == ProtoKey then rest
      else [(fields[0].0, SanitizeInput(fields[0].1))] + rest
  }

  /** Without a `__proto__` field, entry `k` is field `k`'s key with its value sanitised. */
  lemma {:induction false} SanitizeFormDataPointwise(fields: seq<Field>)
    requires forall j :: 0 <= j < |fields| ==> fields[j].0 != ProtoKey
    ensures var r := SanitizeFormData(fields);
      |r| == |fields| && forall k :: 0 <= k < |r| ==> r[k] == (fields[k].0, SanitizeInput(fields[k].1))
  {
    if |fields| > 0 {
      var tail := fields[1..];
      assert forall j :: 0 <= j < |tail| ==> tail[j].0 != ProtoKey;
      SanitizeFormDataPointwise(tail);
      MapConsStep(fields, SanitizeFormData(tail), (f: Field) => (f.0, SanitizeInput(f.1)));
    }
  }

  /** Prepending the image of the head to the images of the tail gives the images of the whole sequence. */
  lemma MapConsStep<A, B>(xs: seq<A>, rest: seq<B>, f: A -> B)
    requires |xs| > 0 && |rest| == |xs| - 1
    requires forall k :: 0 <= k < |rest| ==> rest[k] == f(xs[k + 1])
    ensures forall k :: 0 <= k < |xs| ==> ([f(xs[0])] + rest)[k] == f(xs[k])
  {
    var r := [f(xs[0])] + rest;
    forall k | 1 <= k < |r|
      ensures r[k] == f(xs[k])
    {
      assert r[k] == rest[k - 1];
    }
  }

  /** The sanitised entries are exactly the sanitised values of the fields not keyed `__proto__`. */
  lemma {:induction false} SanitizeFormDataEntries(fields: seq<Field>)
    ensures forall e :: e in SanitizeFormData(fields) <==>
              exists j :: 0 <= j < |fields| && fields[j].0 != ProtoKey && e == (fields[j].0, SanitizeInput(fields[j].1))
  {
    if |fields| > 0 {
      var tail := fields[1..];
      SanitizeFormDataEntries(tail);
      forall e ensures e in SanitizeFormData(fields) <==>
          exists j :: 0 <= j < |fields| && fields[j].0 != ProtoKey && e == (fields[j].0, SanitizeInput(fields[j].1))
      {
        if e in SanitizeFormData(tail) {
          var j :| 0 <= j < |tail| && tail[j].0 != ProtoKey && e == (tail[j].0, SanitizeInput(tail[j].1));
          assert fields[j + 1] == tail[j];
        }
        if exists j :: 0 <= j < |fields| && fields[j].0 != ProtoKey && e == (fields[j].0, SanitizeInput(fields[j].1)) {
          var j :| 0 <= j < |fields| && fields[j].0 != ProtoKey && e == (fields[j].0, SanitizeInput(fields[j].1));
          if j > 0 {
            assert tail[j - 1] == fields[j];
          }
        }
      }
    }
  }

  /** No sanitised form value contains a tag opening the denylist names. */
  lemma SanitizedFormHasNoTags(fields: seq<Field>)
    ensures forall e :: e in SanitizeFormData(fields) ==>
              && !ContainsIgnoringCase(e.1, "<script") && !ContainsIgnoringCase(e.1, "<iframe")
              && !ContainsIgnoringCase(e.1, "<object") && !ContainsIgnoringCase(e.1, "<embed")
  {
    SanitizeFormDataEntries(fields);
    forall e | e in SanitizeFormData(fields)
      ensures && !ContainsIgnoringCase(e.1, "<script") && !ContainsIgnoringCase(e.1, "<iframe")
              && !ContainsIgnoringCase(e.1, "<object") && !ContainsIgnoringCase(e.1, "<embed")
    {
      var j :| 0 <= j < |fields| && fields[j].0 != ProtoKey && e == (fields[j].0, SanitizeInput(fields[j].1));
      SanitizedHasNoTags(fields[j].1);
    }
  }

  /** A field sent under the key `__proto__` does not reach the sanitised data. */
  lemma ProtoFieldDropped(v: FieldValue, fields: seq<Field>)
    ensures SanitizeFormData([(ProtoKey, v)] + fields) == SanitizeFormData(fields)
  {
    var all := [(ProtoKey, v)] + fields;
    assert all[1..] == fields;
  }
}

=== FILE: rate_limit.dfy ===
/**
 * The form guard's in-memory sliding-window rate limiter (`rateLimitStore` in
 * security.js): a list of submission times in milliseconds, a five-minute
 * window and a cap of three submissions inside it. The clock is the `now`
 * parameter of every operation.
 */
module RateLimit {

  const MaxSubmissions := 3
  const WindowMs := 5 * 60 * 1000
  const MinuteMs := 60000

  /** A timestamp still counts at `now` when strictly less than a window old. */
  predicate InWindow(t: int, now: int) {
    now - t < WindowMs
  }

  /** The stored timestamps still inside the window at `now`, in stored order. */
  function Recent(ts: seq<int>, now: int): (r: seq<int>)
    ensures |r| <= |ts|
    ensures forall t :: t in r <==> t in ts && InWindow(t, now)
  {
    if |ts| == 0 then []
    else
      var init := ts[..|ts| - 1];
      var last := ts[|ts| - 1];
      assert ts == init + [last];
      if InWindow(last, now) then Recent(init, now) + [last] else Recent(init, now)
  }

  /** Filtering a list extended at the end filters the old list and then the new entry. */
  lemma RecentSnoc(ts: seq<int>, t: int, now: int)
    ensures Recent(ts + [t], now) == Recent(ts, now) + (if InWindow(t, now) then [t] else [])
  {
    assert (ts + [t])[..|ts|] == ts;
  }

  /** Reference count: the positions of the list whose timestamp is in the window. */
  function WindowPositions(ts: seq<int>, now: int): set<nat> {
    set i: nat | i < |ts| && InWindow(ts[i], now)
  }

  /** Filtering keeps exactly one entry per in-window position. */
  lemma {:induction false} RecentCountsPositions(ts: seq<int>, now: int)
    ensures |Recent(ts, now)| == |WindowPositions(ts, now)|
  {
    if |ts| > 0 {
      var n := |ts| - 1;
      RecentCountsPositions(ts[..n], now);
      PositionsSnoc(ts, now);
    }
  }

  /** The positions of a list are those of all but its last entry, plus the last one when it counts. */
  lemma PositionsSnoc(ts: seq<int>, now: int)
    requires |ts| > 0
    ensures var n := |ts| - 1;
            && WindowPositions(ts, now) == WindowPositions(ts[..n], now) + (if InWindow(ts[n], now) then {n} else {})
            && n !in WindowPositions(ts[..n], now)
  {
    var n := |ts| - 1;
    var init := ts[..n];
    var prefix := WindowPositions(init, now);
    var whole := WindowPositions(ts, now);
    var extra: set<nat> := if InWindow(ts[n], now) then {n} else {};
    forall i: nat | i in whole ensures i in prefix + extra {
      if i < n { assert init[i] == ts[i]; }
    }
    forall i: nat | i in prefix + extra ensures i in whole {
      if i < n { assert init[i] == ts[i]; }
    }
  }

  /** `addSubmission`: drop the expired entries, then record `now` at the end. */
  function AddSubmission(ts: seq<int>, now: int): (r: seq<int>)
    ensures |r| >= 1 && r[|r| - 1] == now
    ensures forall t :: t in r ==> InWindow(t, now)
    ensures forall t :: t in r <==> t == now || (t in ts && InWindow(t, now))
  {
    Recent(ts, now) + [now]
  }

  /** `isRateLimited`: at least three stored submissions lie inside the window. */
  function IsRateLimited(ts: seq<int>, now: int): (limited: bool)
    ensures limited <==> |WindowPositions(ts, now)| >= MaxSubmissions
  {
    RecentCountsPositions(ts, now);
    |Recent(ts, now)| >= MaxSubmissions
  }

  /** Recording a submission makes it count at the same instant, on top of the ones already counted. */
  lemma {:induction false} AddSubmissionCountsOnce(ts: seq<int>, now: int)
    ensures |WindowPositions(AddSubmission(ts, now), now)| == |WindowPositions(ts, now)| + 1
  {
    var r := AddSubmission(ts, now);
    RecentCountsPositions(ts, now);
    RecentCountsPositions(r, now);
    RecentIdempotent(Recent(ts, now), now);
    assert r[..|r| - 1] == Recent(ts, now);
  }

  /** Every entry of an already-filtered list survives a second filter at the same instant. */
  lemma {:induction false} RecentIdempotent(ts: seq<int>, now: int)
    requires forall t :: t in ts ==> InWindow(t, now)
    ensures Recent(ts, now) == ts
  {
    if |ts| > 0 {
      var init := ts[..|ts| - 1];
      assert forall t :: t in init ==> t in ts;
      RecentIdempotent(init, now);
      assert ts == init + [ts[|ts| - 1]];
    }
  }

  /**
   * As time moves forward entries only leave the window; and when one that
   * was counted at `now` has left by `later`, the count strictly drops.
   */
  lemma {:induction false} RecentShrinks(ts: seq<int>, now: int, later: int)
    requires now <= later
    ensures |Recent(ts, later)| <= |Recent(ts, now)|
    ensures (exists i :: 0 <= i < |ts| && InWindow(ts[i], now) && !InWindow(ts[i], later))
            ==> |Recent(ts, later)| < |Recent(ts, now)|
  {
    if |ts| > 0 {
      var n := |ts| - 1;
      var init := ts[..n];
      RecentShrinks(init, now, later);
      if exists i :: 0 <= i < |ts| && InWindow(ts[i], now) && !InWindow(ts[i], later) {
        var i :| 0 <= i < |ts| && InWindow(ts[i], now) && !InWindow(ts[i], later);
        if i < n {
          assert init[i] == ts[i];
        }
      }
    }
  }

  /** The smallest stored timestamp (`Math.min(...submissions)`). */
  function Min(ts: seq<int>): (m: int)
    requires |ts| > 0
    ensures m in ts
    ensures forall t :: t in ts ==> m <= t
  {
    if |ts| == 1 then ts[0]
    else
      var rest := Min(ts[1..]);
      assert ts == [ts[0]] + ts[1..];
      if ts[0] <= rest then ts[0] else rest
  }

  /** `Math.ceil(a / b)` for a positive divisor (Dafny's `/` floors when `b > 0`). */
  function CeilDiv(a: int, b: int): (q: int)
    requires b > 0
    ensures (q - 1) * b < a <= q * b
  {
    -((-a) / b)
  }

  /** Whole minutes, never negative, until a stored time `oldest` leaves the window. */
  function MinutesUntilExpiry(oldest: int, now: int): (m: nat)
    ensures m == 0 <==> !InWindow(oldest, now)
    ensures m > 0 ==> (m - 1) * MinuteMs < oldest + WindowMs - now <= m * MinuteMs
  {
    var q := CeilDiv(oldest + WindowMs - now, MinuteMs);
    if q < 0 then 0 else q
  }

  /**
   * `getWaitTime` as written: 0 for an empty list, otherwise the minutes until
   * the minimum of ALL stored timestamps leaves the window, even when that
   * entry has already expired and no longer counts.
   */
  function WaitMinutesAsWritten(ts: seq<int>, now: int): (m: nat)
    ensures |ts| == 0 ==> m == 0
    ensures |ts| > 0 ==> (m == 0 <==> !InWindow(Min(ts), now))
    ensures |ts| > 0 && m > 0 ==> (m - 1) * MinuteMs < Min(ts) + WindowMs - now <= m * MinuteMs
  {
    if |ts| == 0 then 0 else MinutesUntilExpiry(Min(ts), now)
  }

  /**
   * The wait the message evidently means (the source names the value
   * `oldestInWindow`): minutes until the oldest entry that still counts
   * leaves the window, 0 when nothing counts.
   */
  function WaitMinutes(ts: seq<int>, now: int): (m: nat)
    ensures |Recent(ts, now)| == 0 ==> m == 0
    ensures |Recent(ts, now)| > 0 ==>
              m >= 1 && (m - 1) * MinuteMs < Min(Recent(ts, now)) + WindowMs - now <= m * MinuteMs
  {
    var live := Recent(ts, now);
    if |live| == 0 then 0 else MinutesUntilExpiry(Min(live), now)
  }

  /** Whenever the limiter refuses, the corrected wait is at least one minute. */
  lemma LimitedWaitIsPositive(ts: seq<int>, now: int)
    requires IsRateLimited(ts, now)
    ensures WaitMinutes(ts, now) >= 1
  {
  }

  /**
   * Waiting the corrected number of minutes is enough when exactly three
   * submissions count, the most the guarded discipline below allows: the
   * oldest of them has then left the window, and only two can still count.
   */
  lemma {:induction false} WaitingLiftsLimit(ts: seq<int>, now: int)
    requires |Recent(ts, now)| == MaxSubmissions
    ensures !IsRateLimited(ts, now + WaitMinutes(ts, now) * MinuteMs)
  {
    var later := now + WaitMinutes(ts, now) * MinuteMs;
    OldestLeaves(ts, now);
    var i :| 0 <= i < |ts| && ts[i] == Min(Recent(ts, now));
    RecentShrinks(ts, now, later);
  }

  /** The oldest counting submission is stored, counts now, and has left the window once the wait is over. */
  lemma OldestLeaves(ts: seq<int>, now: int)
    requires |Recent(ts, now)| > 0
    ensures var oldest := Min(Recent(ts, now));
            && oldest in ts && InWindow(oldest, now)
            && !InWindow(oldest, now + WaitMinutes(ts, now) * MinuteMs)
  {
  }

  /** The two promises of the corrected wait on a refusal, in one place. */
  lemma CorrectedWaitHolds(ts: seq<int>, now: int)
    requires IsRateLimited(ts, now)
    ensures WaitMinutes(ts, now) >= 1
    ensures |Recent(ts, now)| == MaxSubmissions ==> !IsRateLimited(ts, now + WaitMinutes(ts, now) * MinuteMs)
  {
    LimitedWaitIsPositive(ts, now);
    if |Recent(ts, now)| == MaxSubmissions {
      WaitingLiftsLimit(ts, now);
    }
  }

  /** What the caller does around the guard: record an attempt only when the limiter let it through. */
  function GuardedAttempts(ts: seq<int>, attempts: seq<int>): seq<int>
    decreases |attempts|
  {
    if |attempts| == 0 then ts
    else
      var now := attempts[0];
      var next := if IsRateLimited(ts, now) then ts else AddSubmission(ts, now);
      GuardedAttempts(next, attempts[1..])
  }

  /** Under that discipline the stored list never holds more than three timestamps. */
  lemma {:induction false} GuardedAttemptsStaySmall(ts: seq<int>, attempts: seq<int>)
    requires |ts| <= MaxSubmissions
    ensures |GuardedAttempts(ts, attempts)| <= MaxSubmissions
    decreases |attempts|
  {
    if |attempts| > 0 {
      var now := attempts[0];
      RecentCountsPositions(ts, now);
      var next := if IsRateLimited(ts, now) then ts else AddSubmission(ts, now);
      GuardedAttemptsStaySmall(next, attempts[1..]);
    }
  }

  /** A filter that keeps as many entries as it was given keeps them all. */
  lemma {:induction false} RecentFull(ts: seq<int>, now: int)
    requires |Recent(ts, now)| == |ts|
    ensures Recent(ts, now) == ts
  {
    if |ts| > 0 {
      var init := ts[..|ts| - 1];
      var last := ts[|ts| - 1];
      assert ts == init + [last];
      RecentSnoc(init, last, now);
      if InWindow(last, now) {
        RecentFull(init, now);
      }
    }
  }

  /**
   * With at most three stored entries the two waits agree whenever the
   * limiter refuses: all three entries then count, so the minimum of the
   * whole list is the oldest counted entry, and the wait as written is at
   * least a minute.
   */
  lemma GuardedWaitsAgree(ts: seq<int>, now: int)
    requires |ts| <= MaxSubmissions && IsRateLimited(ts, now)
    ensures Recent(ts, now) == ts && |ts| == MaxSubmissions
    ensures WaitMinutesAsWritten(ts, now) == WaitMinutes(ts, now) >= 1
  {
    RecentFull(ts, now);
  }

  /** With at most three stored entries, waiting the minutes announced as written lifts the limit. */
  lemma GuardedWaitLiftsLimit(ts: seq<int>, now: int)
    requires |ts| <= MaxSubmissions && IsRateLimited(ts, now)
    ensures !IsRateLimited(ts, now + WaitMinutesAsWritten(ts, now) * MinuteMs)
  {
    GuardedWaitsAgree(ts, now);
    FullWindowWaitLifts(ts, now);
  }

  /** With three entries counting, the wait as written lifts the limit whenever it equals the corrected one. */
  lemma FullWindowWaitLifts(ts: seq<int>, now: int)
    requires |Recent(ts, now)| == MaxSubmissions
    requires WaitMinutesAsWritten(ts, now) == WaitMinutes(ts, now)
    ensures !IsRateLimited(ts, now + WaitMinutesAsWritten(ts, now) * MinuteMs)
  {
    WaitingLiftsLimit(ts, now);
  }

  /**
   * Under the guarded discipline the wait as written is never wrong: after
   * any sequence of checked attempts, a refusal announces the corrected wait.
   */
  lemma GuardedAttemptsWaitsAgree(ts: seq<int>, attempts: seq<int>, now: int)
    requires |ts| <= MaxSubmissions
    ensures var g := GuardedAttempts(ts, attempts);
            IsRateLimited(g, now) ==> WaitMinutesAsWritten(g, now) == WaitMinutes(g, now) >= 1
  {
    var g := GuardedAttempts(ts, attempts);
    GuardedAttemptsStaySmall(ts, attempts);
    if IsRateLimited(g, now) {
      GuardedWaitsAgree(g, now);
    }
  }

  /**
   * The three-submission scenario: entries at 0, 60 s and 120 s refuse a
   * fourth attempt at 200 s and let it through at 310 s, once the first has
   * left the window.
   */
  lemma ThreeSubmissionScenario()
    ensures var ts := AddSubmission(AddSubmission(AddSubmission([], 0), 60000), 120000);
            ts == [0, 60000, 120000] && IsRateLimited(ts, 200000) && !IsRateLimited(ts, 310000)
  {
    assert AddSubmission([], 0) == [0];
    assert AddSubmission([0], 60000) == [0, 60000] by {
      AddWithinWindow([0], 60000);
    }
    assert AddSubmission([0, 60000], 120000) == [0, 60000, 120000] by {
      AddWithinWindow([0, 60000], 120000);
    }
    assert Recent([0, 60000, 120000], 200000) == [0, 60000, 120000] by {
      RecentIdempotent([0, 60000, 120000], 200000);
    }
    assert Recent([0], 310000) == [] by {
      RecentSnoc([], 0, 310000);
    }
    assert Recent([0, 60000], 310000) == [60000] by {
      RecentSnoc([0], 60000, 310000);
    }
    assert Recent([0, 60000, 120000], 310000) == [60000, 120000] by {
      RecentSnoc([0, 60000], 120000, 310000);
      assert [0, 60000] + [120000] == [0, 60000, 120000];
    }
  }

  /** Recording at `now` into a list whose entries all still count only appends. */
  lemma AddWithinWindow(ts: seq<int>, now: int)
    requires forall t :: t in ts ==> InWindow(t, now)
    ensures AddSubmission(ts, now) == ts + [now]
  {
    RecentIdempotent(ts, now);
  }

  /** The list the stale-minimum scenario below builds. */
  lemma StaleScenarioList()
    ensures AddSubmission(AddSubmission(AddSubmission(AddSubmission([], 0), 200000), 250000), 299000)
            == [0, 200000, 250000, 299000]
  {
    assert AddSubmission([], 0) == [0];
    assert AddSubmission([0], 200000) == [0, 200000] by {
      AddWithinWindow([0], 200000);
    }
    assert AddSubmission([0, 200000], 250000) == [0, 200000, 250000] by {
      AddWithinWindow([0, 200000], 250000);
    }
    assert AddSubmission([0, 200000, 250000], 299000) == [0, 200000, 250000, 299000] by {
      AddWithinWindow([0, 200000, 250000], 299000);
    }
  }

  /** At 310 s only the last three entries of that list still count. */
  lemma StaleScenarioLive()
    ensures Recent([0, 200000, 250000, 299000], 310000) == [200000, 250000, 299000]
  {
    assert Recent([0], 310000) == [] by {
      RecentSnoc([], 0, 310000);
    }
    assert Recent([0, 200000], 310000) == [200000] by {
      RecentSnoc([0], 200000, 310000);
    }
    assert Recent([0, 200000, 250000], 310000) == [200000, 250000] by {
      RecentSnoc([0, 200000], 250000, 310000);
    }
    RecentSnoc([0, 200000, 250000], 299000, 310000);
    assert [0, 200000, 250000] + [299000] == [0, 200000, 250000, 299000];
  }

  /**
   * The wait announced as written can be zero while the limiter refuses,
   * once attempts are recorded without asking the limiter first (the public
   * `addSubmission` allows it): a stale entry from 0 s survives, since it was
   * in the window when the later ones were added, and is the minimum,
   * although only the 200 s, 250 s and 299 s submissions still count at
   * 310 s, the earliest of which expires in four minutes.
   */
  lemma WaitAsWrittenUnderstates()
    ensures var ts := AddSubmission(AddSubmission(AddSubmission(AddSubmission([], 0), 200000), 250000), 299000);
            && ts == [0, 200000, 250000, 299000]
            && IsRateLimited(ts, 310000)
            && WaitMinutesAsWritten(ts, 310000) == 0
            && WaitMinutes(ts, 310000) == 4
  {
    StaleScenarioList();
    StaleScenarioWaits();
  }

  /** The two waits in the stale-minimum scenario, and that the limiter refuses there. */
  lemma StaleScenarioWaits()
    ensures IsRateLimited([0, 200000, 250000, 299000], 310000)
    ensures WaitMinutesAsWritten([0, 200000, 250000, 299000], 310000) == 0
    ensures WaitMinutes([0, 200000, 250000, 299000], 310000) == 4
  {
    var ts := [0, 200000, 250000, 299000];
    var live := [200000, 250000, 299000];
    StaleScenarioLive();
    assert Min(ts) == 0;
    assert Min(live) == 200000;
    assert MinutesUntilExpiry(200000, 310000) == 4;
  }
}

=== FILE: sanitize.dfy ===
/**
 * Content checks of the form guard (security.js): `isInputSafe`, the
 * denylist test a submission must pass, and `sanitizeInput`, the chain of
 * global regular-expression replacements applied to values before they are
 * sent on. Each regular expression is modelled by a function giving the
 * length of its match at a position (0 when it does not match there); the
 * patterns are such that their backtracking has a single outcome, so these
 * lengths are exactly what the regular-expression engine finds.
 */
module Sanitize {
  import opened Text
  import opened Wrappers

  /** A submitted form value: a string, or anything `typeof` does not call a string. */
  datatype FieldValue = Str(s: string) | NonString

  // ------------------------------------------------------------ denylist

  /** `/on\w+\s*=/i` matches at `i`: "on", one or more word characters, optional spaces, "=". */
  predicate HandlerAssignAt(s: string, i: nat) {
    && MatchesAt(s, i, "on")
    && var j := Span(s, i + 2, IsWordChar);
    && j > i + 2
    && var k := Span(s, j, IsSpace);
    && k < |s| && s[k] == '='
  }

  /** `/expression\s*\(/i` matches at `i`. */
  predicate CssExpressionAt(s: string, i: nat) {
    && MatchesAt(s, i, "expression")
    && var j := Span(s, i + 10, IsSpace);
    && j < |s| && s[j] == '('
  }

  /** The eight dangerous patterns of `isInputSafe`; true when one of them occurs in `s`. */
  predicate IsDangerous(s: string) {
    || ContainsIgnoringCase(s, "<script")
    || ContainsIgnoringCase(s, "javascript:")
    || (exists i :: 0 <= i <= |s| && HandlerAssignAt(s, i))
    || ContainsIgnoringCase(s, "<iframe")
    || ContainsIgnoringCase(s, "<object")
    || ContainsIgnoringCase(s, "<embed")
    || (exists i :: 0 <= i <= |s| && CssExpressionAt(s, i))
    || ContainsIgnoringCase(s, "data:text/html")
  }

  /** `isInputSafe`: non-strings are safe; a string is safe when no dangerous pattern occurs in it. */
  function IsInputSafe(v: FieldValue): (safe: bool)
    ensures v.NonString? ==> safe
    ensures v.Str? && ContainsIgnoringCase(v.s, "<script") ==> !safe
    ensures v.Str? && ContainsIgnoringCase(v.s, "javascript:") ==> !safe
    ensures v.Str? && ContainsIgnoringCase(v.s, "<iframe") ==> !safe
    ensures v.Str? && ContainsIgnoringCase(v.s, "<object") ==> !safe
    ensures v.Str? && ContainsIgnoringCase(v.s, "<embed") ==> !safe
    ensures v.Str? && ContainsIgnoringCase(v.s, "data:text/html") ==> !safe
    ensures v.Str? && (exists i :: 0 <= i <= |v.s| && HandlerAssignAt(v.s, i)) ==> !safe
    ensures v.Str? && (exists i :: 0 <= i <= |v.s| && CssExpressionAt(v.s, i)) ==> !safe
    ensures v.Str? ==> (safe <==> !IsDangerous(v.s))
  {
    match v
    case NonString => true
    case Str(s) => !IsDangerous(s)
  }

  /** A character that the case-insensitive match of a punctuation character must hit exactly. */
  lemma MatchedPunctuation(s: string, i: nat, lit: string, k: nat)
    requires MatchesAt(s, i, lit) && k < |lit| && !('a' <= lit[k] <= 'z')
    ensures s[i + k] == lit[k]
  {
  }

  /**
   * Every dangerous pattern contains one of `<`, `:`, `=` or `(`, so plain
   * text without those four characters always passes the content check.
   */
  lemma PlainTextIsSafe(s: string)
    requires forall k :: 0 <= k < |s| ==> s[k] != '<' && s[k] != ':' && s[k] != '=' && s[k] != '('
    ensures IsInputSafe(Str(s))
  {
    forall i | 0 <= i <= |s|
      ensures !MatchesAt(s, i, "<script") && !MatchesAt(s, i, "<iframe") && !MatchesAt(s, i, "<object")
      ensures !MatchesAt(s, i, "<embed") && !MatchesAt(s, i, "javascript:") && !MatchesAt(s, i, "data:text/html")
      ensures !HandlerAssignAt(s, i) && !CssExpressionAt(s, i)
    {
      if MatchesAt(s, i, "<script") { MatchedPunctuation(s, i, "<script", 0); }
      if MatchesAt(s, i, "<iframe") { MatchedPunctuation(s, i, "<iframe", 0); }
      if MatchesAt(s, i, "<object") { MatchedPunctuation(s, i, "<object", 0); }
      if MatchesAt(s, i, "<embed") { MatchedPunctuation(s, i, "<embed", 0); }
      if MatchesAt(s, i, "javascript:") { MatchedPunctuation(s, i, "javascript:", 10); }
      if MatchesAt(s, i, "data:text/html") { MatchedPunctuation(s, i, "data:text/html", 4); }
    }
  }

  // ------------------------------------------------------------ sanitizer patterns

  predicate IsQuote(c: char) {
    c == '"' || c == '\''
  }

  /** The search for the first occurrence of `lit` at or after `from`, ignoring ASCII case. */
  function FindFrom(s: string, from: nat, lit: string): (r: Option<nat>)
    requires from <= |s|
    ensures r.Some? ==> from <= r.value && MatchesAt(s, r.value, lit)
                        && forall j :: from <= j < r.value ==> !MatchesAt(s, j, lit)
    ensures r.None? ==> forall j :: from <= j <= |s| ==> !MatchesAt(s, j, lit)
    decreases |s| - from
  {
    if MatchesAt(s, from, lit) then Some(from)
    else if from == |s| then None
    else FindFrom(s, from + 1, lit)
  }

  /** The five replacements of `sanitizeInput` that remove text, in the order applied. */
  datatype Pattern =
    | ScriptBlock    // /<script\b[^<]*(?:(?!<\/script>)<[^<]*)*<\/script>/gi
    | QuotedHandler  // /\s*on\w+\s*=\s*["'][^"']*["']/gi
    | BareHandler    // /\s*on\w+\s*=\s*[^\s>]*/gi
    | JsUri          // /javascript\s*:/gi
    | DataHtml       // /data\s*:\s*text\/html/gi

  /**
   * `<script`, a word boundary, then everything up to and including the
   * first `</script>`: the script-block pattern's greedy body cannot step
   * over a `</script>`, and without one it does not match at all.
   */
  function ScriptBlockAt(s: string, i: nat): (n: nat)
    requires i <= |s|
    ensures i + n <= |s|
    ensures n > 0 ==> n >= 16 && MatchesAt(s, i, "<script") && MatchesAt(s, i + n - 9, "</script>")
  {
    if MatchesAt(s, i, "<script") && (i + 7 == |s| || !IsWordChar(s[i + 7])) then
      match FindFrom(s, i + 7, "</script>")
      case Some(k) => k + 9 - i
      case None => 0
    else 0
  }

  /**
   * A script block starts exactly where `<script`, a word boundary and some
   * later `</script>` meet, and it ends at the first `</script>` after the
   * tag name.
   */
  lemma ScriptBlockShape(s: string, i: nat)
    requires i <= |s|
    ensures ScriptBlockAt(s, i) > 0 <==>
              && MatchesAt(s, i, "<script") && (i + 7 == |s| || !IsWordChar(s[i + 7]))
              && exists k :: i + 7 <= k <= |s| && MatchesAt(s, k, "</script>")
    ensures forall k :: i + 7 <= k < i + ScriptBlockAt(s, i) - 9 ==> !MatchesAt(s, k, "</script>")
  {
    if MatchesAt(s, i, "<script") && (i + 7 == |s| || !IsWordChar(s[i + 7])) {
      match FindFrom(s, i + 7, "</script>")
      case Some(k) =>
        assert MatchesAt(s, k, "</script>");
      case None =>
    }
  }

  /** Start of `\s*on\w+\s*=\s*` at `i`: the index after it, or `None` when it does not match. */
  function HandlerPrefixAt(s: string, i: nat): (r: Option<nat>)
    requires i <= |s|
    ensures r.Some? ==> i + 3 <= r.value <= |s|
  {
    var j0 := Span(s, i, IsSpace);
    if !MatchesAt(s, j0, "on") then None
    else
      var j1 := Span(s, j0 + 2, IsWordChar);
      if j1 == j0 + 2 then None
      else
        var j2 := Span(s, j1, IsSpace);
        if j2 == |s| || s[j2] != '=' then None
        else Some(Span(s, j2 + 1, IsSpace))
  }

  function QuotedHandlerAt(s: string, i: nat): (n: nat)
    requires i <= |s|
    ensures i + n <= |s|
  {
    match HandlerPrefixAt(s, i)
    case None => 0
    case Some(j) =>
      if j == |s| || !IsQuote(s[j]) then 0
      else
        var k := Span(s, j + 1, c => !IsQuote(c));
        if k == |s| then 0 else k + 1 - i
  }

  function BareHandlerAt(s: string, i: nat): (n: nat)
    requires i <= |s|
    ensures i + n <= |s|
  {
    match HandlerPrefixAt(s, i)
    case None => 0
    case Some(j) => Span(s, j, c => !IsSpace(c) && c != '>') - i
  }

  /** `javascript:` at `i` is `javascript` followed by a colon. */
  lemma JsUriPrefix(s: string, i: nat)
    requires MatchesAt(s, i, "javascript:")
    ensures MatchesAt(s, i, "javascript") && s[i + 10] == ':'
  {
    forall k | 0 <= k < 10 ensures Lower(s[i + k]) == "javascript"[k] {
      assert "javascript"[k] == "javascript:"[k];
    }
    MatchedPunctuation(s, i, "javascript:", 10);
  }

  function JsUriAt(s: string, i: nat): (n: nat)
    requires i <= |s|
    ensures i + n <= |s|
    ensures n > 0 ==> MatchesAt(s, i, "javascript") && s[i + n - 1] == ':'
  {
    if !MatchesAt(s, i, "javascript") then 0
    else
      var j := Span(s, i + 10, IsSpace);
      if j < |s| && s[j] == ':' then j + 1 - i else 0
  }

  /**
   * A `javascript:` match is the word, any run of spaces, then the colon;
   * the literal `javascript:` is matched with no spaces, eleven characters long.
   */
  lemma JsUriShape(s: string, i: nat)
    requires i <= |s|
    ensures JsUriAt(s, i) > 0 ==> JsUriAt(s, i) >= 11 && forall k :: i + 10 <= k < i + JsUriAt(s, i) - 1 ==> IsSpace(s[k])
    ensures MatchesAt(s, i, "javascript:") ==> JsUriAt(s, i) == 11
  {
    if MatchesAt(s, i, "javascript:") {
      JsUriPrefix(s, i);
    }
  }

  function DataHtmlAt(s: string, i: nat): (n: nat)
    requires i <= |s|
    ensures i + n <= |s|
  {
    if !MatchesAt(s, i, "data") then 0
    else
      var j := Span(s, i + 4, IsSpace);
      if j == |s| || s[j] != ':' then 0
      else
        var k := Span(s, j + 1, IsSpace);
        if MatchesAt(s, k, "text/html") then k + 9 - i else 0
  }

  /** Length of the match of `p` starting at `i`, 0 when it does not match there. */
  function MatchLength(p: Pattern, s: string, i: nat): (n: nat)
    requires i <= |s|
    ensures i + n <= |s|
  {
    match p
    case ScriptBlock => ScriptBlockAt(s, i)
    case QuotedHandler => QuotedHandlerAt(s, i)
    case BareHandler => BareHandlerAt(s, i)
    case JsUri => JsUriAt(s, i)
    case DataHtml => DataHtmlAt(s, i)
  }

  /**
   * `s.replace(p, '')` with the global flag, from index `i` on: the leftmost
   * match is deleted and the search resumes after it; elsewhere characters
   * are copied one at a time.
   */
  function RemoveFrom(p: Pattern, s: string, i: nat): (r: string)
    requires i <= |s|
    ensures |r| <= |s| - i
    ensures forall c :: c in r ==> c in s[i..]
    ensures (forall j :: i <= j < |s| ==> MatchLength(p, s, j) == 0) ==> r == s[i..]
    ensures i < |s| && MatchLength(p, s, i) > 0 ==> |r| < |s| - i
    decreases |s| - i
  {
    if i == |s| then []
    else
      var n := MatchLength(p, s, i);
      assert s[i..] == [s[i]] + s[i + 1..];
      if n > 0 then
        var rest := RemoveFrom(p, s, i + n);
        assert forall c :: c in s[i + n..] ==> c in s[i..] by {
          assert s[i..] == s[i..i + n] + s[i + n..];
        }
        rest
      else
        var rest := RemoveFrom(p, s, i + 1);
        assert forall c :: c in rest ==> c in s[i..];
        [s[i]] + rest
  }

  function RemoveAll(p: Pattern, s: string): (r: string)
    ensures |r| <= |s|
    ensures forall c :: c in r ==> c in s
    ensures (forall j :: 0 <= j < |s| ==> MatchLength(p, s, j) == 0) ==> r == s
  {
    assert s[0..] == s;
    RemoveFrom(p, s, 0)
  }

  /** The first match is deleted, so wherever the pattern occurs the removal shortens the text. */
  lemma RemoveAllShrinks(p: Pattern, s: string, k: nat)
    requires k < |s| && NoMatchIn(p, s, 0, k) && MatchLength(p, s, k) > 0
    ensures |RemoveAll(p, s)| < |s|
  {
    KeepRun(p, s, 0, k);
  }

  /** `s.replace(/c/g, rep)` for a single character `c`. */
  function ReplaceChar(s: string, c: char, rep: string): (r: string)
    ensures c !in rep ==> c !in r
    ensures forall d :: d in r ==> d in rep || (d in s && d != c)
    ensures c !in s ==> r == s
  {
    if |s| == 0 then []
    else
      var head := if s[0] == c then rep else [s[0]];
      assert s == [s[0]] + s[1..];
      head + ReplaceChar(s[1..], c, rep)
  }

  /** A four-character replacement grows the text by three for each occurrence of `c`. */
  lemma {:induction false} ReplaceCharLength(s: string, c: char, rep: string)
    requires |rep| == 4
    ensures |ReplaceChar(s, c, rep)| == |s| + 3 * multiset(s)[c]
  {
    if |s| > 0 {
      ReplaceCharLength(s[1..], c, rep);
      assert s == [s[0]] + s[1..];
      assert multiset(s) == multiset([s[0]]) + multiset(s[1..]);
      var head := if s[0] == c then rep else [s[0]];
      assert ReplaceChar(s, c, rep) == head + ReplaceChar(s[1..], c, rep);
    }
  }

  /** Replacing one character leaves the count of every character that neither it nor the replacement is. */
  lemma {:induction false} ReplaceCharKeepsCount(s: string, c: char, rep: string, d: char)
    requires d != c && d !in rep
    ensures multiset(ReplaceChar(s, c, rep))[d] == multiset(s)[d]
  {
    if |s| > 0 {
      ReplaceCharKeepsCount(s[1..], c, rep, d);
      var head := if s[0] == c then rep else [s[0]];
      assert s == [s[0]] + s[1..];
      assert ReplaceChar(s, c, rep) == head + ReplaceChar(s[1..], c, rep);
      CountAppend(head, ReplaceChar(s[1..], c, rep), d);
      CountAppend([s[0]], s[1..], d);
      if s[0] == c {
        assert d !in multiset(rep);
      }
    }
  }

  /** Occurrences of `d` add up over a concatenation. */
  lemma CountAppend(a: string, b: string, d: char)
    ensures multiset(a + b)[d] == multiset(a)[d] + multiset(b)[d]
  {
    assert multiset(a + b) == multiset(a) + multiset(b);
  }

  /** The replacement works character by character: it distributes over concatenation. */
  lemma {:induction false} ReplaceCharAppend(a: string, b: string, c: char, rep: string)
    ensures ReplaceChar(a + b, c, rep) == ReplaceChar(a, c, rep) + ReplaceChar(b, c, rep)
  {
    if |a| > 0 {
      ReplaceCharAppend(a[1..], b, c, rep);
      assert (a + b)[1..] == a[1..] + b;
      assert (a + b)[0] == a[0];
    } else {
      assert a + b == b;
    }
  }

  /** The last two replacements: `<` becomes `&lt;`, then `>` becomes `&gt;`. */
  function EncodeAngles(s: string): (r: string)
    ensures '<' !in r && '>' !in r
    ensures forall d :: d in r ==> d in "&lt;gt" || (d in s && d != '<' && d != '>')
    ensures '<' !in s && '>' !in s ==> r == s
  {
    ReplaceChar(ReplaceChar(s, '<', "&lt;"), '>', "&gt;")
  }

  /** Each angle bracket becomes a four-character entity, so the text grows by three per bracket. */
  lemma EncodeAnglesLength(s: string)
    ensures |EncodeAngles(s)| == |s| + 3 * (multiset(s)['<'] + multiset(s)['>'])
  {
    var lt := ReplaceChar(s, '<', "&lt;");
    ReplaceCharLength(s, '<', "&lt;");
    ReplaceCharLength(lt, '>', "&gt;");
    ReplaceCharKeepsCount(s, '<', "&lt;", '>');
  }

  /** Encoding works character by character. */
  lemma EncodeAnglesAppend(a: string, b: string)
    ensures EncodeAngles(a + b) == EncodeAngles(a) + EncodeAngles(b)
  {
    ReplaceCharAppend(a, b, '<', "&lt;");
    ReplaceCharAppend(ReplaceChar(a, '<', "&lt;"), ReplaceChar(b, '<', "&lt;"), '>', "&gt;");
  }

  /** Each `<` becomes `&lt;`, each `>` becomes `&gt;`, and every other character stays. */
  lemma EncodeAnglesChar(c: char)
    ensures EncodeAngles([c]) == if c == '<' then "&lt;" else if c == '>' then "&gt;" else [c]
  {
    var lt := ReplaceChar([c], '<', "&lt;");
    assert [c][1..] == [];
    if c == '<' {
      assert lt == "&lt;";
      assert ReplaceChar(lt, '>', "&gt;") == "&lt;" by {
        assert '>' !in lt;
      }
    } else {
      assert lt == [c];
    }
  }

  /** The five removals in source order. */
  function StripPatterns(s: string): (r: string)
    ensures |r| <= |s|
    ensures forall c :: c in r ==> c in s
  {
    RemoveAll(DataHtml, RemoveAll(JsUri, RemoveAll(BareHandler, RemoveAll(QuotedHandler, RemoveAll(ScriptBlock, s)))))
  }

  /**
   * `sanitizeInput`: non-strings become the empty string; strings lose the
   * five patterns, have their angle brackets encoded and are trimmed.
   */
  function SanitizeInput(v: FieldValue): (r: string)
    ensures v.NonString? ==> r == []
    ensures '<' !in r && '>' !in r
    ensures |r| > 0 ==> !IsSpace(r[0]) && !IsSpace(r[|r| - 1])
    ensures v.Str? ==> forall d :: d in r ==> d in "&lt;gt" || d in v.s
  {
    match v
    case NonString => []
    case Str(s) =>
      Trim(EncodeAngles(StripPatterns(s)))
  }

  /** A string without `<` contains no tag opening, in any case. */
  lemma NoAngleNoTag(r: string, lit: string)
    requires '<' !in r
    requires |lit| > 0 && lit[0] == '<'
    ensures !ContainsIgnoringCase(r, lit)
  {
    forall i | 0 <= i <= |r| ensures !MatchesAt(r, i, lit) {
      if i < |r| {
        assert r[i] in r;
      }
    }
  }

  /** Output of the sanitizer contains no tag opening the denylist names, whatever the input. */
  lemma SanitizedHasNoTags(v: FieldValue)
    ensures !ContainsIgnoringCase(SanitizeInput(v), "<script")
    ensures !ContainsIgnoringCase(SanitizeInput(v), "<iframe")
    ensures !ContainsIgnoringCase(SanitizeInput(v), "<object")
    ensures !ContainsIgnoringCase(SanitizeInput(v), "<embed")
  {
    var r := SanitizeInput(v);
    NoAngleNoTag(r, "<script");
    NoAngleNoTag(r, "<iframe");
    NoAngleNoTag(r, "<object");
    NoAngleNoTag(r, "<embed");
  }

  /** Text without a `j` holds no `javascript:` to remove. */
  lemma NoJNoJsUri(s: string, i: nat)
    requires i <= |s|
    requires forall k :: i <= k < |s| ==> Lower(s[k]) != 'j'
    ensures RemoveFrom(JsUri, s, i) == s[i..]
  {
    forall j | i <= j < |s| ensures MatchLength(JsUri, s, j) == 0 {
      assert Lower(s[j + 0]) != "javascript"[0];
    }
  }

  /** Where the pattern does not match, the character is kept. */
  lemma RemoveFromKeeps(p: Pattern, s: string, i: nat)
    requires i < |s| && MatchLength(p, s, i) == 0
    ensures RemoveFrom(p, s, i) == [s[i]] + RemoveFrom(p, s, i + 1)
  {
  }

  /** The pattern starts nowhere in `[i, j)`. */
  predicate NoMatchIn(p: Pattern, s: string, i: nat, j: nat)
    requires i <= j <= |s|
    decreases j - i
  {
    i == j || (MatchLength(p, s, i) == 0 && NoMatchIn(p, s, i + 1, j))
  }

  /** A stretch where the pattern never starts is kept whole. */
  lemma {:induction false} KeepRun(p: Pattern, s: string, i: nat, j: nat)
    requires i <= j <= |s| && NoMatchIn(p, s, i, j)
    ensures RemoveFrom(p, s, i) == s[i..j] + RemoveFrom(p, s, j)
    decreases j - i
  {
    if i < j {
      KeepRun(p, s, i + 1, j);
      KeepOneMore(p, s, i, j);
    } else {
      assert s[i..j] == [];
    }
  }

  /** The step of `KeepRun`: one more kept character in front. */
  lemma KeepOneMore(p: Pattern, s: string, i: nat, j: nat)
    requires i < j <= |s| && MatchLength(p, s, i) == 0
    requires RemoveFrom(p, s, i + 1) == s[i + 1..j] + RemoveFrom(p, s, j)
    ensures RemoveFrom(p, s, i) == s[i..j] + RemoveFrom(p, s, j)
  {
    RemoveFromKeeps(p, s, i);
    ConsSlice(s, i, j, RemoveFrom(p, s, i), RemoveFrom(p, s, i + 1), RemoveFrom(p, s, j));
  }

  /** Sequence bookkeeping for `KeepOneMore`. */
  lemma ConsSlice(s: string, i: nat, j: nat, r0: string, r1: string, rest: string)
    requires i < j <= |s|
    requires r0 == [s[i]] + r1 && r1 == s[i + 1..j] + rest
    ensures r0 == s[i..j] + rest
  {
    assert s[i..j] == [s[i]] + s[i + 1..j];
  }

  /** Where the pattern matches, the match is dropped. */
  lemma RemoveFromDrops(p: Pattern, s: string, i: nat)
    requires i < |s| && MatchLength(p, s, i) > 0
    ensures RemoveFrom(p, s, i) == RemoveFrom(p, s, i + MatchLength(p, s, i))
  {
  }

  /** A position whose character is not a `j` starts no `javascript:`. */
  lemma NotJAt(s: string, i: nat)
    requires i < |s| && Lower(s[i]) != 'j'
    ensures MatchLength(JsUri, s, i) == 0
  {
    assert Lower(s[i + 0]) != "javascript"[0];
  }

  /** Text equal to a literal without capitals matches it. */
  lemma ExactMatch(s: string, i: nat, lit: string)
    requires i + |lit| <= |s| && s[i..i + |lit|] == lit
    requires forall k :: 0 <= k < |lit| ==> !('A' <= lit[k] <= 'Z')
    ensures MatchesAt(s, i, lit)
  {
    forall k | 0 <= k < |lit| ensures Lower(s[i + k]) == lit[k] {
      assert s[i + k] == s[i..i + |lit|][k];
    }
  }

  /** The example of `JsRemovalCanFormPattern` starts no `javascript:` at its first character. */
  lemma JsExampleAt0(s: string)
    requires s == "javajavascript:script:"
    ensures MatchLength(JsUri, s, 0) == 0
  {
    assert Lower(s[4]) != "javascript"[4];
  }

  /** The example holds one `javascript:`, eleven characters from its fifth. */
  lemma JsExampleAt4(s: string)
    requires s == "javajavascript:script:"
    ensures MatchLength(JsUri, s, 4) == 11
  {
    ExactMatch(s, 4, "javascript");
    assert Span(s, 14, IsSpace) == 14;
  }

  /** The text around that occurrence. */
  lemma JsExampleHalves(s: string)
    requires s == "javajavascript:script:"
    ensures s[0..4] == "java" && s[15..] == "script:"
    ensures forall k :: 15 <= k < |s| ==> Lower(s[k]) != 'j'
    ensures forall k :: 1 <= k < 4 ==> Lower(s[k]) != 'j'
  {
  }

  /**
   * One pass of the `javascript:` removal can assemble the very text it
   * removes: the halves around a removed occurrence join into a new one.
   */
  lemma JsRemovalCanFormPattern()
    ensures RemoveAll(JsUri, "javajavascript:script:") == "javascript:"
  {
    var s := "javajavascript:script:";
    JsExampleHalves(s);
    var tail := RemoveFrom(JsUri, s, 4);
    assert tail == s[15..] by {
      JsExampleAt4(s);
      NoJNoJsUri(s, 15);
      RemoveFromDrops(JsUri, s, 4);
    }
    assert RemoveAll(JsUri, s) == s[0..4] + tail by {
      forall k | 0 <= k < 4 ensures MatchLength(JsUri, s, k) == 0 {
        if k == 0 {
          JsExampleAt0(s);
        } else {
          NotJAt(s, k);
        }
      }
      assert NoMatchIn(JsUri, s, 4, 4);
      assert NoMatchIn(JsUri, s, 3, 4);
      assert NoMatchIn(JsUri, s, 2, 4);
      assert NoMatchIn(JsUri, s, 1, 4);
      KeepRun(JsUri, s, 0, 4);
    }
    JoinHalves(s[0..4], s[15..]);
  }

  lemma JoinHalves(a: string, b: string)
    requires a == "java" && b == "script:"
    ensures a + b == "javascript:"
  {
  }
}

=== FILE: site.dfy ===
/**
 * The page rules of script.js that are pure decisions under their DOM
 * wiring: the theme of `initTheme`, the scroll thresholds of
 * `initScrollEffects` and the carousel steps of `initCarousel`. The
 * browser's clamping of `scrollBy` to the scrollable range is part of the
 * model; smooth-scroll animation is not (each step is taken to finish
 * before the next).
 */
module Site {
  import opened Wrappers
  import opened Browser

  // ------------------------------------------------------------------ theme

  /**
   * The theme at load: the stored theme, else the system preference. When
   * `localStorage` throws, or `matchMedia` throws while it is consulted,
   * the theme stays `'light'`. `prefersDark` is `None` when `matchMedia`
   * throws.
   */
  function InitialTheme(ls: LocalStorage, prefersDark: Option<bool>): (theme: string)
    ensures SavedTheme(ls).Some? ==> theme == SavedTheme(ls).value
    ensures SavedTheme(ls).None? && ls.Available? && prefersDark.Some? ==>
              theme == if prefersDark.value then "dark" else "light"
    ensures ls.Unavailable? || (SavedTheme(ls).None? && prefersDark.None?) ==> theme == "light"
  {
    match ls
    case Unavailable => "light"
    case Available(_) =>
      if SavedTheme(ls).Some? then SavedTheme(ls).value
      else match prefersDark
        case None => "light"
        case Some(dark) => if dark then "dark" else "light"
  }

  /** The toggle: `'light'` becomes `'dark'`, anything else (a missing attribute reads as `'light'`) becomes `'light'`. */
  function Toggle(current: Option<string>): (next: string)
    ensures next == "dark" <==> current.None? || current.value == "" || current.value == "light"
    ensures next == "light" <==> !(current.None? || current.value == "" || current.value == "light")
  {
    var theme := if current.None? || current.value == "" then "light" else current.value;
    if theme == "light" then "dark" else "light"
  }

  /** Toggling twice restores a light or dark page. */
  lemma ToggleTwice(theme: string)
    requires theme == "light" || theme == "dark"
    ensures Toggle(Some(Toggle(Some(theme)))) == theme
  {
  }

  /** The icon shown for a theme: the sun on a dark page, the moon otherwise. */
  function Icon(theme: string): (icon: string)
    ensures icon == "sun" <==> theme == "dark"
    ensures icon == "moon" <==> theme != "dark"
  {
    if theme == "dark" then "sun" else "moon"
  }

  /** A click on the toggle: the new theme and the storage after `setItem`, which is skipped when it throws. */
  function ToggleAndSave(current: Option<string>, ls: LocalStorage): (r: (string, LocalStorage))
    ensures r.0 == Toggle(current)
    ensures ls.Available? ==> r.1 == Available(Some(r.0))
    ensures ls.Unavailable? ==> r.1 == ls
  {
    var next := Toggle(current);
    match ls
    case Unavailable => (next, ls)
    case Available(_) => (next, Available(Some(next)))
  }

  /** The next load shows the theme the visitor toggled to, whatever the system prefers. */
  lemma ToggledThemePersists(current: Option<string>, ls: LocalStorage, prefersDark: Option<bool>)
    requires ls.Available?
    ensures var (next, ls') := ToggleAndSave(current, ls);
            InitialTheme(ls', prefersDark) == next
  {
  }

  /**
   * The system-preference listener: it changes the page only while no
   * theme is stored; with `localStorage` unusable the listener throws and
   * the page keeps its theme.
   */
  function OnSystemThemeChange(current: string, ls: LocalStorage, matchesDark: bool): (theme: string)
    ensures SavedTheme(ls).Some? || ls.Unavailable? ==> theme == current
    ensures SavedTheme(ls).None? && ls.Available? ==> theme == if matchesDark then "dark" else "light"
  {
    if ls.Available? && SavedTheme(ls).None? then (if matchesDark then "dark" else "light") else current
  }

  /** Once the visitor has toggled, system changes no longer move the theme. */
  lemma ToggleOverridesSystem(current: Option<string>, ls: LocalStorage, matchesDark: bool)
    requires ls.Available?
    ensures var (next, ls') := ToggleAndSave(current, ls);
            OnSystemThemeChange(next, ls', matchesDark) == next
  {
  }

  // ------------------------------------------------------------------ scroll thresholds

  const NavbarThreshold := 50
  const BackToTopThreshold := 300

  /** The navbar carries the `scrolled` class past 50 px. */
  predicate NavbarScrolled(scrollY: int) {
    scrollY > NavbarThreshold
  }

  /** The back-to-top button is visible past 300 px. */
  predicate BackToTopVisible(scrollY: int) {
    scrollY > BackToTopThreshold
  }

  /** The classes a scroll event sets. */
  datatype ScrollClasses = ScrollClasses(scrolled: bool, visible: bool)

  function OnScroll(scrollY: int): (c: ScrollClasses)
    ensures c.scrolled <==> scrollY > 50
    ensures c.visible <==> scrollY > 300
  {
    ScrollClasses(NavbarScrolled(scrollY), BackToTopVisible(scrollY))
  }

  /** The back-to-top button never shows over an unscrolled navbar. */
  lemma VisibleImpliesScrolled(scrollY: int)
    ensures OnScroll(scrollY).visible ==> OnScroll(scrollY).scrolled
  {
  }

  // ------------------------------------------------------------------ carousel

  const ScrollAmount := 320
  const WrapSlack := 10

  /** `scrollLeft` after the browser clamps it to `[0, maxScroll]`. */
  function Clamp(x: int, maxScroll: int): (r: int)
    ensures maxScroll >= 0 ==> 0 <= r <= maxScroll
    ensures 0 <= x <= maxScroll ==> r == x
    ensures x < 0 ==> r == 0
    ensures maxScroll >= 0 && x > maxScroll ==> r == maxScroll
  {
    if x < 0 then 0 else if x > maxScroll then (if maxScroll < 0 then 0 else maxScroll) else x
  }

  /** The next button. */
  function Next(x: int, maxScroll: int): int {
    Clamp(x + ScrollAmount, maxScroll)
  }

  /** The previous button. */
  function Prev(x: int, maxScroll: int): int {
    Clamp(x - ScrollAmount, maxScroll)
  }

  /** Previous undoes next wherever next moved a full card. */
  lemma PrevUndoesNext(x: int, maxScroll: int)
    requires 0 <= x && x + ScrollAmount <= maxScroll
    ensures Prev(Next(x, maxScroll), maxScroll) == x
  {
  }

  /**
   * One auto-scroll tick: back to the start within 10 px of the end (or
   * when there is nothing to scroll), else one card on. `scrollLeft` is
   * never negative.
   */
  function AutoScrollTick(x: int, maxScroll: int): (r: int)
    requires 0 <= x
    ensures 0 <= r
    ensures x >= maxScroll - WrapSlack ==> r == 0
    ensures x < maxScroll - WrapSlack ==> x < r <= maxScroll && (r == maxScroll || r == x + ScrollAmount)
  {
    if x >= maxScroll - WrapSlack then 0 else Next(x, maxScroll)
  }

  /** `n` auto-scroll ticks. */
  function AutoScroll(x: int, maxScroll: int, n: nat): (r: int)
    requires 0 <= x
    ensures 0 <= r
    ensures x <= maxScroll ==> r <= maxScroll
    decreases n
  {
    if n == 0 then x else AutoScroll(AutoScrollTick(x, maxScroll), maxScroll, n - 1)
  }

  /** The number of ticks until the carousel is back at the start. */
  function TicksToWrap(x: int, maxScroll: int): nat
    requires 0 <= x
    decreases maxScroll - x
  {
    if x >= maxScroll - WrapSlack then 1 else 1 + TicksToWrap(AutoScrollTick(x, maxScroll), maxScroll)
  }

  /** From any position the auto-scroll returns to the start, one card per tick until the end. */
  lemma {:induction false} AutoScrollWraps(x: int, maxScroll: int)
    requires 0 <= x <= maxScroll
    ensures AutoScroll(x, maxScroll, TicksToWrap(x, maxScroll)) == 0
    ensures TicksToWrap(x, maxScroll) <= (maxScroll - x) / ScrollAmount + 2
    decreases maxScroll - x
  {
    if x < maxScroll - WrapSlack {
      var y := AutoScrollTick(x, maxScroll);
      AutoScrollWraps(y, maxScroll);
      if y == maxScroll {
        assert TicksToWrap(y, maxScroll) == 1;
      } else {
        assert y == x + ScrollAmount;
      }
    }
  }
}

=== FILE: text.dfy ===
/**
 * Character classes and string helpers shared by the form guard, the cookie
 * store and the booking form: the ECMAScript `\s` / `trim` whitespace set,
 * the `\w` word characters, ASCII case-insensitive matching (what a regular
 * expression with the `i` flag does for the ASCII patterns used here), and
 * decimal and hexadecimal rendering of numbers.
 */
module Text {

  /** ECMAScript WhiteSpace and LineTerminator code points: what `\s` matches and `trim` removes. */
  predicate IsSpace(c: char) {
    || c == '\t' || c == '\n' || c == '\U{000B}' || c == '\U{000C}' || c == '\r' || c == ' '
    || c == '\U{00A0}' || c == '\U{1680}' || ('\U{2000}' <= c <= '\U{200A}')
    || c == '\U{2028}' || c == '\U{2029}' || c == '\U{202F}' || c == '\U{205F}'
    || c == '\U{3000}' || c == '\U{FEFF}'
  }

  /** What `\w` matches outside unicode mode. */
  predicate IsWordChar(c: char) {
    ('a' <= c <= 'z') || ('A' <= c <= 'Z') || ('0' <= c <= '9') || c == '_'
  }

  predicate IsDigit(c: char) {
    '0' <= c <= '9'
  }

  /** ASCII lower-casing; every other character is left alone. */
  function Lower(c: char): (r: char)
    ensures 'A' <= c <= 'Z' ==> 'a' <= r <= 'z' && r as int - c as int == 32
    ensures !('A' <= c <= 'Z') ==> r == c
  {
    if 'A' <= c <= 'Z' then (c as int + 32) as char else c
  }

  /** `lit` (written in lower case) occurs in `s` at index `i`, ignoring ASCII case. */
  predicate MatchesAt(s: string, i: nat, lit: string) {
    i + |lit| <= |s| && forall k :: 0 <= k < |lit| ==> Lower(s[i + k]) == lit[k]
  }

  /** `lit` occurs somewhere in `s`, ignoring ASCII case. */
  predicate ContainsIgnoringCase(s: string, lit: string) {
    exists i :: 0 <= i <= |s| && MatchesAt(s, i, lit)
  }

  /** The end of the longest run of characters satisfying `p` that starts at `i`. */
  function Span(s: string, i: nat, p: char -> bool): (j: nat)
    requires i <= |s|
    ensures i <= j <= |s|
    ensures forall k :: i <= k < j ==> p(s[k])
    ensures j == |s| || !p(s[j])
    decreases |s| - i
  {
    if i == |s| || !p(s[i]) then i else Span(s, i + 1, p)
  }

  /** Index of the first non-space character (or `|s|`). */
  function LeadingSpaces(s: string): (n: nat)
    ensures n <= |s|
    ensures forall k :: 0 <= k < n ==> IsSpace(s[k])
    ensures n == |s| || !IsSpace(s[n])
  {
    Span(s, 0, IsSpace)
  }

  /** Index one past the last non-space character (or 0). */
  function TrailingStart(s: string): (n: nat)
    ensures n <= |s|
    ensures forall k :: n <= k < |s| ==> IsSpace(s[k])
    ensures n == 0 || !IsSpace(s[n - 1])
    decreases |s|
  {
    if |s| == 0 || !IsSpace(s[|s| - 1]) then |s| else TrailingStart(s[..|s| - 1])
  }

  /** `r` is `s` with only whitespace removed, all of it before index `a` or after `r` ends. */
  predicate StripsSpacesAt(s: string, r: string, a: nat) {
    && a + |r| <= |s| && r == s[a..a + |r|]
    && (forall k :: 0 <= k < a ==> IsSpace(s[k]))
    && (forall k :: a + |r| <= k < |s| ==> IsSpace(s[k]))
  }

  /** `String.prototype.trim`. */
  function Trim(s: string): (r: string)
    ensures |r| > 0 ==> !IsSpace(r[0]) && !IsSpace(r[|r| - 1])
    ensures exists a: nat :: StripsSpacesAt(s, r, a)
    ensures forall c :: c in r ==> c in s
  {
    var a := LeadingSpaces(s);
    var b := TrailingStart(s);
    if b <= a then
      AllSpacesTrim(s, a, b);
      []
    else
      InnerTrim(s, a, b);
      s[a..b]
  }

  /** When the trailing run reaches back over the leading one, the whole string is space. */
  lemma AllSpacesTrim(s: string, a: nat, b: nat)
    requires a == LeadingSpaces(s) && b == TrailingStart(s) && b <= a
    ensures StripsSpacesAt(s, [], 0)
  {
    forall k | 0 <= k < |s| ensures IsSpace(s[k]) {
      if k < b { assert k < a; }
    }
  }

  /** Otherwise the part between the two runs is what remains. */
  lemma InnerTrim(s: string, a: nat, b: nat)
    requires a == LeadingSpaces(s) && b == TrailingStart(s) && a < b
    ensures StripsSpacesAt(s, s[a..b], a)
    ensures forall c :: c in s[a..b] ==> c in s
  {
    assert s == s[..a] + s[a..b] + s[b..];
  }

  // ---------------------------------------------------------------- decimal

  /** The value of a string of decimal digits, most significant first. */
  function DigitsValue(s: string): nat
    requires forall k :: 0 <= k < |s| ==> IsDigit(s[k])
  {
    if |s| == 0 then 0
    else
      assert IsDigit(s[|s| - 1]);
      10 * DigitsValue(s[..|s| - 1]) + (s[|s| - 1] as int - '0' as int)
  }

  function DigitChar(d: nat): (c: char)
    requires d < 10
    ensures IsDigit(c) && c as int - '0' as int == d
  {
    ('0' as int + d) as char
  }

  /** `Number.prototype.toString()` on a non-negative integer. */
  function NatToString(n: nat): (r: string)
    ensures |r| >= 1
    ensures forall k :: 0 <= k < |r| ==> IsDigit(r[k])
    ensures r[0] == '0' ==> n == 0
  {
    if n < 10 then [DigitChar(n)] else NatToString(n / 10) + [DigitChar(n % 10)]
  }

  /** Reading back the decimal rendering gives the number. */
  lemma {:induction false} NatToStringRoundTrip(n: nat)
    ensures DigitsValue(NatToString(n)) == n
  {
    var r := NatToString(n);
    if n >= 10 {
      var p := NatToString(n / 10);
      assert r[..|r| - 1] == p;
      NatToStringRoundTrip(n / 10);
    }
  }

  // ---------------------------------------------------------------- hexadecimal

  type byte = x: int | 0 <= x < 256

  /** Lower-case hexadecimal digit, as `Number.prototype.toString(16)` writes it. */
  function HexDigit(d: nat): (c: char)
    requires d < 16
    ensures ('0' <= c <= '9') || ('a' <= c <= 'f')
  {
    if d < 10 then DigitChar(d) else ('a' as int + (d - 10)) as char
  }

  predicate IsHexChar(c: char) {
    ('0' <= c <= '9') || ('a' <= c <= 'f')
  }

  /** Inverse of `HexDigit`. */
  function HexValue(c: char): (d: nat)
    requires IsHexChar(c)
    ensures d < 16
  {
    if c <= '9' then c as int - '0' as int else c as int - 'a' as int + 10
  }

  lemma HexDigitRoundTrip(d: nat)
    requires d < 16
    ensures HexValue(HexDigit(d)) == d
  {
  }

  /** `byte.toString(16).padStart(2, '0')`: high nibble then low nibble. */
  function ByteToHex(b: byte): (r: string)
    ensures |r| == 2 && IsHexChar(r[0]) && IsHexChar(r[1])
    ensures 16 * HexValue(r[0]) + HexValue(r[1]) == b
  {
    [HexDigit(b / 16), HexDigit(b % 16)]
  }
}

=== FILE: tracking.dfy ===
/**
 * The consent-gated read-modify-write updaters of cookies.js: the visit
 * counter and first-touch referrer of `initUserTracking`, `trackPageView`,
 * `trackUserHabits`, the unload writer of `trackTimeSpent` and the counters
 * of `trackFormInteractions`. Clock, path, hour, viewport width and referrer
 * are parameters; a write that would throw inside the source's `try` leaves
 * the jar as it was.
 */
module Tracking {
  import opened Wrappers
  import opened CookieJar

  const MaxPageViews := 20
  const MobileMaxWidth := 768

  // ------------------------------------------------------------------ page views

  /** `findIndex(p => p.page === page)`. */
  function FindPage(views: seq<PageView>, page: string): (r: Option<nat>)
    ensures r.Some? ==> r.value < |views| && views[r.value].page == page
                        && forall j :: 0 <= j < r.value ==> views[j].page != page
    ensures r.None? ==> forall j :: 0 <= j < |views| ==> views[j].page != page
  {
    if |views| == 0 then None
    else if views[0].page == page then Some(0)
    else
      match FindPage(views[1..], page)
      case None => None
      case Some(i) => Some(i + 1)
  }

  /** No page appears twice. */
  predicate DistinctPages(views: seq<PageView>) {
    forall i, j :: 0 <= i < j < |views| ==> views[i].page != views[j].page
  }

  /** `slice(-20)` when the list is longer than 20. */
  function KeepLast(views: seq<PageView>): (r: seq<PageView>)
    ensures |r| <= MaxPageViews
    ensures |views| <= MaxPageViews ==> r == views
    ensures |views| > MaxPageViews ==> r == views[|views| - MaxPageViews..]
  {
    if |views| > MaxPageViews then views[|views| - MaxPageViews..] else views
  }

  /**
   * The list update of `trackPageView`: a known page has its count bumped
   * and its last visit set where it stands; a new page is appended with a
   * count of 1; then only the last 20 entries are kept.
   */
  function UpdatePageViews(views: seq<PageView>, page: string, now: int): (r: seq<PageView>)
    ensures |r| <= MaxPageViews
    ensures |views| <= MaxPageViews && FindPage(views, page).Some? ==>
              var i := FindPage(views, page).value;
              && |r| == |views|
              && r[i] == PageView(page, views[i].count + 1, views[i].firstVisit, now)
              && forall j :: 0 <= j < |r| && j != i ==> r[j] == views[j]
    ensures FindPage(views, page).None? && |views| < MaxPageViews ==>
              r == views + [PageView(page, 1, now, now)]
    ensures FindPage(views, page).None? && |views| == MaxPageViews ==>
              r == views[1..] + [PageView(page, 1, now, now)]
  {
    match FindPage(views, page)
    case Some(i) => KeepLast(views[i := views[i].(count := views[i].count + 1, lastVisit := now)])
    case None => KeepLast(views + [PageView(page, 1, now, now)])
  }

  /** Page keys that were distinct stay distinct. */
  lemma UpdateKeepsPagesDistinct(views: seq<PageView>, page: string, now: int)
    requires DistinctPages(views)
    ensures DistinctPages(UpdatePageViews(views, page, now))
  {
    match FindPage(views, page)
    case Some(i) =>
      var updated := views[i := views[i].(count := views[i].count + 1, lastVisit := now)];
      SamePagesDistinct(views, updated);
      SuffixDistinct(updated);
    case None =>
      var updated := views + [PageView(page, 1, now, now)];
      assert DistinctPages(updated);
      SuffixDistinct(updated);
  }

  /** A list with the same pages in the same places is as distinct as the original. */
  lemma SamePagesDistinct(a: seq<PageView>, b: seq<PageView>)
    requires DistinctPages(a) && |a| == |b|
    requires forall j :: 0 <= j < |a| ==> a[j].page == b[j].page
    ensures DistinctPages(b)
  {
  }

  /** Keeping the last entries keeps distinct pages distinct. */
  lemma SuffixDistinct(views: seq<PageView>)
    requires DistinctPages(views)
    ensures DistinctPages(KeepLast(views))
  {
  }

  /**
   * A revisited page keeps its place: visiting the first of two pages again
   * does not move it behind the second.
   */
  lemma RevisitKeepsPosition(a: PageView, b: PageView, now: int)
    requires a.page != b.page
    ensures UpdatePageViews([a, b], a.page, now) == [a.(count := a.count + 1, lastVisit := now), b]
  {
  }

  /** A new page is the last entry afterwards: the cut never drops the entry just added. */
  lemma NewPageIsLast(views: seq<PageView>, page: string, now: int)
    requires FindPage(views, page).None?
    ensures var r := UpdatePageViews(views, page, now);
            |r| > 0 && r[|r| - 1] == PageView(page, 1, now, now)
  {
  }

  /** `trackPageView`: nothing when consent is rejected or the stored list does not parse. */
  function TrackPageView(jar: Jar, page: string, now: int): (jar': Jar)
    ensures IsRejected(jar) || ReadViews(jar).None? ==> jar' == jar
    ensures SameOutside(jar, jar', {PageViewsName})
    ensures !IsRejected(jar) && ReadViews(jar).Some? ==>
              PageViewsName in jar' && jar'[PageViewsName] == Views(UpdatePageViews(ReadViews(jar).value, page, now))
  {
    if IsRejected(jar) then jar
    else match ReadViews(jar)
      case None => jar
      case Some(views) => jar[PageViewsName := Views(UpdatePageViews(views, page, now))]
  }

  // ------------------------------------------------------------------ habits

  /** A histogram bucket, 0 when absent. */
  function Bucket<K>(m: map<K, int>, k: K): int {
    if k in m then m[k] else 0
  }

  /** `m[k] = (m[k] || 0) + 1`. */
  function Bump<K(!new)>(m: map<K, int>, k: K): (m': map<K, int>)
    ensures forall x :: Bucket(m', x) == Bucket(m, x) + (if x == k then 1 else 0)
    ensures m'.Keys == m.Keys + {k}
  {
    m[k := Bucket(m, k) + 1]
  }

  /** Time of day of a local hour: before 6 night, before 12 morning, before 18 afternoon, else evening. */
  function SlotOf(hour: int): (slot: TimeSlot)
    ensures slot == Night <==> hour < 6
    ensures slot == Morning <==> 6 <= hour < 12
    ensures slot == Afternoon <==> 12 <= hour < 18
    ensures slot == Evening <==> hour >= 18
  {
    if hour < 6 then Night else if hour < 12 then Morning else if hour < 18 then Afternoon else Evening
  }

  /** Viewports up to 768 px wide count as mobile. */
  function DeviceOf(width: int): (d: Device)
    ensures d == Mobile <==> width <= MobileMaxWidth
  {
    if width <= MobileMaxWidth then Mobile else Desktop
  }

  /** The record update of `trackUserHabits`. */
  function RecordSession(h: Habits, hour: int, width: int): (h': Habits)
    ensures forall s :: Bucket(h'.preferredTime, s) == Bucket(h.preferredTime, s) + (if s == SlotOf(hour) then 1 else 0)
    ensures forall d :: Bucket(h'.deviceType, d) == Bucket(h.deviceType, d) + (if d == DeviceOf(width) then 1 else 0)
    ensures h'.sessionCount == h.sessionCount + 1
    ensures h'.avgScrollDepth == h.avgScrollDepth && h'.totalTimeSpent == h.totalTimeSpent
    ensures h'.lastSessionDuration == h.lastSessionDuration
  {
    h.(preferredTime := Bump(h.preferredTime, SlotOf(hour)),
       deviceType := Bump(h.deviceType, DeviceOf(width)),
       sessionCount := h.sessionCount + 1)
  }

  /** The sum of a histogram over a list of buckets. */
  function BucketSum<K>(m: map<K, int>, keys: seq<K>): int {
    if |keys| == 0 then 0 else Bucket(m, keys[0]) + BucketSum(m, keys[1..])
  }

  /** Bumping a bucket outside the key list leaves the sum alone. */
  lemma {:induction false} BumpElsewhere<K(!new)>(m: map<K, int>, k: K, keys: seq<K>)
    requires k !in keys
    ensures BucketSum(Bump(m, k), keys) == BucketSum(m, keys)
  {
    if |keys| > 0 {
      BumpElsewhere(m, k, keys[1..]);
    }
  }

  /** Bumping a bucket that occurs exactly once in the key list raises the sum by one. */
  lemma {:induction false} BumpAddsOne<K(!new)>(m: map<K, int>, k: K, keys: seq<K>)
    requires k in keys
    requires forall i, j :: 0 <= i < j < |keys| ==> keys[i] != keys[j]
    ensures BucketSum(Bump(m, k), keys) == BucketSum(m, keys) + 1
  {
    if keys[0] == k {
      assert k !in keys[1..];
      BumpElsewhere(m, k, keys[1..]);
    } else {
      BumpAddsOne(m, k, keys[1..]);
    }
  }

  /** Every session adds one visit in total to the time-of-day histogram and one to the device histogram. */
  lemma SessionAddsOneEach(h: Habits, hour: int, width: int)
    ensures BucketSum(RecordSession(h, hour, width).preferredTime, [Night, Morning, Afternoon, Evening])
            == BucketSum(h.preferredTime, [Night, Morning, Afternoon, Evening]) + 1
    ensures BucketSum(RecordSession(h, hour, width).deviceType, [Mobile, Desktop])
            == BucketSum(h.deviceType, [Mobile, Desktop]) + 1
  {
    BumpAddsOne(h.preferredTime, SlotOf(hour), [Night, Morning, Afternoon, Evening]);
    BumpAddsOne(h.deviceType, DeviceOf(width), [Mobile, Desktop]);
  }

  /**
   * `trackUserHabits`: the habits cookie gains one session. The flag says
   * whether the unload writer of `trackTimeSpent` was armed, which happens
   * only after the write.
   */
  function TrackUserHabits(jar: Jar, hour: int, width: int): (r: (Jar, bool))
    ensures IsRejected(jar) || ReadHabits(jar).None? ==> r == (jar, false)
    ensures SameOutside(jar, r.0, {HabitsName})
    ensures !IsRejected(jar) && ReadHabits(jar).Some? ==>
              && r.1
              && HabitsName in r.0
              && r.0[HabitsName] == HabitsCell(RecordSession(ReadHabits(jar).value, hour, width))
  {
    if IsRejected(jar) then (jar, false)
    else match ReadHabits(jar)
      case None => (jar, false)
      case Some(h) => (jar[HabitsName := HabitsCell(RecordSession(h, hour, width))], true)
  }

  /** `Math.round(ms / 1000)`: halves round up. */
  function RoundToSeconds(ms: int): (s: int)
    ensures 1000 * s - 500 <= ms < 1000 * s + 500
  {
    (ms + 500) / 1000
  }

  /** The change the unload writer makes to the habits record it reads. */
  function AddTimeSpent(h: Habits, seconds: int): (h': Habits)
    ensures h'.totalTimeSpent == h.totalTimeSpent + seconds
    ensures h'.lastSessionDuration == Some(seconds)
    ensures h'.preferredTime == h.preferredTime && h'.deviceType == h.deviceType
    ensures h'.avgScrollDepth == h.avgScrollDepth && h'.sessionCount == h.sessionCount
  {
    h.(totalTimeSpent := h.totalTimeSpent + seconds, lastSessionDuration := Some(seconds))
  }

  /**
   * The unload writer of `trackTimeSpent` as written: it re-reads the habits
   * cookie when the page unloads, but does not look at consent again. The
   * contract mirrors the code on purpose; `UnloadRecreatesHabits` is what it
   * shows.
   */
  function WriteTimeSpentAsWritten(jar: Jar, startTime: int, now: int): (jar': Jar)
    ensures ReadHabits(jar).None? ==> jar' == jar
    ensures ReadHabits(jar).Some? ==>
              HabitsName in jar'
              && jar'[HabitsName] == HabitsCell(AddTimeSpent(ReadHabits(jar).value, RoundToSeconds(now - startTime)))
    ensures SameOutside(jar, jar', {HabitsName})
  {
    match ReadHabits(jar)
    case None => jar
    case Some(h) => jar[HabitsName := HabitsCell(AddTimeSpent(h, RoundToSeconds(now - startTime)))]
  }

  /**
   * A consent rejected between page load and unload does not stop the
   * writer: it creates the habits cookie again.
   */
  lemma UnloadRecreatesHabits(jar: Jar, startTime: int, now: int)
    requires IsRejected(jar) && HabitsName !in jar
    ensures HabitsName in WriteTimeSpentAsWritten(jar, startTime, now)
  {
  }

  /** The unload writer with the consent test every other updater starts with. */
  function WriteTimeSpent(jar: Jar, startTime: int, now: int): (jar': Jar)
    ensures IsRejected(jar) ==> jar' == jar
    ensures !IsRejected(jar) && ReadHabits(jar).Some? ==>
              HabitsName in jar'
              && jar'[HabitsName] == HabitsCell(AddTimeSpent(ReadHabits(jar).value, RoundToSeconds(now - startTime)))
    ensures ReadHabits(jar).None? ==> jar' == jar
    ensures !IsRejected(jar) ==> jar' == WriteTimeSpentAsWritten(jar, startTime, now)
    ensures SameOutside(jar, jar', {HabitsName})
  {
    if IsRejected(jar) then jar else WriteTimeSpentAsWritten(jar, startTime, now)
  }

  // ------------------------------------------------------------------ form interactions

  /**
   * What `trackFormInteractions` leaves behind: the counters as read when it
   * ran, and which listeners it attached. The submit listener needs the
   * booking form, the modal-open listener the form and the open button; a
   * click listener goes on every primary button.
   */
  datatype FormTracker = FormTracker(snapshot: FormStats, onSubmit: bool, onModalOpen: bool)

  datatype Interaction = BookingSubmit(at: int) | ModalOpen | CtaClick

  /** `trackFormInteractions`: nothing when consent is rejected or the stored counters do not parse. */
  function TrackFormInteractions(jar: Jar, hasBookingForm: bool, hasOpenButton: bool): (t: Option<FormTracker>)
    ensures t.Some? <==> !IsRejected(jar) && ReadFormStats(jar).Some?
    ensures t.Some? ==> t.value.snapshot == ReadFormStats(jar).value
    ensures t.Some? ==> (t.value.onSubmit <==> hasBookingForm)
    ensures t.Some? ==> (t.value.onModalOpen <==> hasBookingForm && hasOpenButton)
  {
    if IsRejected(jar) then None
    else match ReadFormStats(jar)
      case None => None
      case Some(f) => Some(FormTracker(f, hasBookingForm, hasBookingForm && hasOpenButton))
  }

  /** Whether a listener for this interaction was attached. */
  predicate Listens(t: FormTracker, e: Interaction) {
    match e
    case BookingSubmit(_) => t.onSubmit
    case ModalOpen => t.onModalOpen
    case CtaClick => true
  }

  /** The counter one interaction raises. */
  function Tally(f: FormStats, e: Interaction): (f': FormStats)
    ensures f'.bookingSubmissions == f.bookingSubmissions + (if e.BookingSubmit? then 1 else 0)
    ensures f'.modalOpens == f.modalOpens + (if e.ModalOpen? then 1 else 0)
    ensures f'.ctaClicks == f.ctaClicks + (if e.CtaClick? then 1 else 0)
    ensures f'.lastBookingAttempt == if e.BookingSubmit? then Some(e.at) else f.lastBookingAttempt
  {
    match e
    case BookingSubmit(at) => f.(bookingSubmissions := f.bookingSubmissions + 1, lastBookingAttempt := Some(at))
    case ModalOpen => f.(modalOpens := f.modalOpens + 1)
    case CtaClick => f.(ctaClicks := f.ctaClicks + 1)
  }

  /**
   * A form-interaction listener as written: it raises the counter in the
   * in-memory snapshot and writes the whole snapshot back, whatever the
   * cookie holds now and whatever consent now says. The contract mirrors
   * the code on purpose; `ClickRecreatesCounters` is what it shows.
   */
  function OnInteractionAsWritten(t: FormTracker, e: Interaction, jar: Jar): (r: (FormTracker, Jar))
    ensures !Listens(t, e) ==> r == (t, jar)
    ensures Listens(t, e) ==> r.0 == t.(snapshot := Tally(t.snapshot, e)) && r.1 == jar[FormName := FormCell(r.0.snapshot)]
  {
    if !Listens(t, e) then (t, jar)
    else
      var t' := t.(snapshot := Tally(t.snapshot, e));
      (t', jar[FormName := FormCell(t'.snapshot)])
  }

  /** A click after the visitor rejected consent in the same page writes the counters again. */
  lemma ClickRecreatesCounters(t: FormTracker, jar: Jar)
    requires IsRejected(jar) && FormName !in jar
    ensures FormName in OnInteractionAsWritten(t, CtaClick, jar).1
  {
  }

  /** The listener with the consent test every other updater starts with; it still writes from the snapshot. */
  function OnInteraction(t: FormTracker, e: Interaction, jar: Jar): (r: (FormTracker, Jar))
    ensures IsRejected(jar) ==> r == (t, jar)
    ensures !Listens(t, e) ==> r == (t, jar)
    ensures !IsRejected(jar) ==> r == OnInteractionAsWritten(t, e, jar)
    ensures !IsRejected(jar) && Listens(t, e) ==>
              r.0 == t.(snapshot := Tally(t.snapshot, e)) && r.1 == jar[FormName := FormCell(Tally(t.snapshot, e))]
    ensures SameOutside(jar, r.1, {FormName})
  {
    if IsRejected(jar) then (t, jar) else OnInteractionAsWritten(t, e, jar)
  }

  /**
   * The counters written do not depend on what the cookie held when the
   * listener fired: whatever another page stored since the snapshot is
   * overwritten.
   */
  lemma SnapshotOverwrites(t: FormTracker, e: Interaction, jar1: Jar, jar2: Jar)
    requires Listens(t, e) && !IsRejected(jar1) && !IsRejected(jar2)
    ensures FormName in OnInteraction(t, e, jar1).1 && FormName in OnInteraction(t, e, jar2).1
    ensures OnInteraction(t, e, jar1).1[FormName] == OnInteraction(t, e, jar2).1[FormName]
  {
  }

  // ------------------------------------------------------------------ initUserTracking

  /** What the page supplies when tracking starts. */
  datatype Visit = Visit(
    now: nat,             // Date.now()
    isoNow: string,       // new Date().toISOString()
    referrer: string,     // document.referrer
    path: string,         // window.location.pathname
    hour: int,            // new Date().getHours()
    width: int,           // window.innerWidth
    hasBookingForm: bool,
    hasOpenButton: bool)

  /** The jar after tracking, plus the deferred writers left armed. */
  datatype Tracked = Tracked(jar: Jar, timeSpentStart: Option<int>, forms: Option<FormTracker>)

  /** Visit counter, last-visit time and first-touch referrer. */
  function CountVisit(jar: Jar, v: Visit): (jar': Jar)
    ensures VisitsName in jar' && jar'[VisitsName] == Count(ReadVisits(jar) + 1)
    ensures LastVisitName in jar' && jar'[LastVisitName] == Text(v.isoNow)
    ensures IsTruthy(GetCookie(jar, ReferrerName)) || v.referrer == "" ==>
              GetCookie(jar', ReferrerName) == GetCookie(jar, ReferrerName)
    ensures !IsTruthy(GetCookie(jar, ReferrerName)) && v.referrer != "" ==>
              GetCookie(jar', ReferrerName) == Some(Text(v.referrer))
    ensures SameOutside(jar, jar', {VisitsName, LastVisitName, ReferrerName})
  {
    var counted := jar[VisitsName := Count(ReadVisits(jar) + 1)][LastVisitName := Text(v.isoNow)];
    if !IsTruthy(GetCookie(jar, ReferrerName)) && v.referrer != "" then counted[ReferrerName := Text(v.referrer)]
    else counted
  }

  /**
   * `initUserTracking`: nothing at all when consent is rejected. Otherwise the
   * visit is counted, the page-view list and the habits record are updated
   * when they parse, the time-spent writer is armed exactly when the habits
   * record parses, and the form listeners are attached exactly when the
   * counters parse. Only analytics cookies change.
   */
  function InitUserTracking(jar: Jar, v: Visit): (r: Tracked)
    ensures IsRejected(jar) ==> r == Tracked(jar, None, None)
    ensures !IsRejected(jar) ==> VisitsName in r.jar && r.jar[VisitsName] == Count(ReadVisits(jar) + 1)
    ensures !IsRejected(jar) ==> LastVisitName in r.jar && r.jar[LastVisitName] == Text(v.isoNow)
    ensures !IsRejected(jar) && ReadViews(jar).Some? ==>
              PageViewsName in r.jar && r.jar[PageViewsName] == Views(UpdatePageViews(ReadViews(jar).value, v.path, v.now))
    ensures ReadViews(jar).None? ==> GetCookie(r.jar, PageViewsName) == GetCookie(jar, PageViewsName)
    ensures !IsRejected(jar) && ReadHabits(jar).Some? ==>
              HabitsName in r.jar && r.jar[HabitsName] == HabitsCell(RecordSession(ReadHabits(jar).value, v.hour, v.width))
    ensures ReadHabits(jar).None? ==> GetCookie(r.jar, HabitsName) == GetCookie(jar, HabitsName)
    ensures r.timeSpentStart.Some? <==> !IsRejected(jar) && ReadHabits(jar).Some?
    ensures r.timeSpentStart.Some? ==> r.timeSpentStart.value == v.now
    ensures r.forms.Some? <==> !IsRejected(jar) && ReadFormStats(jar).Some?
    ensures r.forms.Some? ==> r.forms.value == FormTracker(ReadFormStats(jar).value, v.hasBookingForm, v.hasBookingForm && v.hasOpenButton)
    ensures SameOutside(jar, r.jar, AnalyticsNames)
  {
    if IsRejected(jar) then Tracked(jar, None, None)
    else
      var counted := CountVisit(jar, v);
      var viewed := TrackPageView(counted, v.path, v.now);
      var (habits, armed) := TrackUserHabits(viewed, v.hour, v.width);
      InitUserTrackingReads(jar, counted, viewed, habits);
      SameOutsideChain(jar, counted, viewed, {VisitsName, LastVisitName, ReferrerName}, {PageViewsName}, AnalyticsNames);
      SameOutsideChain(jar, viewed, habits, AnalyticsNames, {HabitsName}, AnalyticsNames);
      Tracked(habits, if armed then Some(v.now) else None,
              TrackFormInteractions(habits, v.hasBookingForm, v.hasOpenButton))
  }

  /** Each step of `initUserTracking` reads the cookies the earlier steps left alone as they were stored. */
  lemma InitUserTrackingReads(jar: Jar, counted: Jar, viewed: Jar, habits: Jar)
    requires SameOutside(jar, counted, {VisitsName, LastVisitName, ReferrerName})
    requires SameOutside(counted, viewed, {PageViewsName})
    requires SameOutside(viewed, habits, {HabitsName})
    ensures IsRejected(counted) == IsRejected(jar) && IsRejected(viewed) == IsRejected(jar) && IsRejected(habits) == IsRejected(jar)
    ensures ReadViews(counted) == ReadViews(jar)
    ensures ReadHabits(viewed) == ReadHabits(jar) && GetCookie(viewed, HabitsName) == GetCookie(jar, HabitsName)
    ensures ReadFormStats(habits) == ReadFormStats(jar)
    ensures GetCookie(habits, VisitsName) == GetCookie(counted, VisitsName)
    ensures GetCookie(habits, LastVisitName) == GetCookie(counted, LastVisitName)
    ensures GetCookie(habits, PageViewsName) == GetCookie(viewed, PageViewsName)
  {
    NecessaryNamesApart();
    SameOutsideKeepsCookie(jar, counted, {VisitsName, LastVisitName, ReferrerName}, ConsentName);
    SameOutsideKeepsCookie(counted, viewed, {PageViewsName}, ConsentName);
    SameOutsideKeepsCookie(viewed, habits, {HabitsName}, ConsentName);
    SameOutsideKeepsCookie(jar, counted, {VisitsName, LastVisitName, ReferrerName}, PageViewsName);
    SameOutsideKeepsCookie(jar, counted, {VisitsName, LastVisitName, ReferrerName}, HabitsName);
    SameOutsideKeepsCookie(counted, viewed, {PageViewsName}, HabitsName);
    SameOutsideKeepsCookie(jar, counted, {VisitsName, LastVisitName, ReferrerName}, FormName);
    SameOutsideKeepsCookie(counted, viewed, {PageViewsName}, FormName);
    SameOutsideKeepsCookie(viewed, habits, {HabitsName}, FormName);
    SameOutsideKeepsCookie(counted, viewed, {PageViewsName}, VisitsName);
    SameOutsideKeepsCookie(viewed, habits, {HabitsName}, VisitsName);
    SameOutsideKeepsCookie(counted, viewed, {PageViewsName}, LastVisitName);
    SameOutsideKeepsCookie(viewed, habits, {HabitsName}, LastVisitName);
    SameOutsideKeepsCookie(viewed, habits, {HabitsName}, PageViewsName);
  }
}

=== FILE: wrappers.dfy ===
/** The optional value used throughout the model for JavaScript's `null` / missing entries. */
module Wrappers {

  datatype Option<+T> = None | Some(value: T) {

    /** The value, or `default` when there is none. */
    function GetOr(default: T): (r: T)
      ensures Some? ==> r == value
      ensures None? ==> r == default
    {
      match this
      case Some(v) => v
      case None => default
    }
  }
}
